=== FILE: README.md ===
# ooposc core, modelled in Dafny

`ooposc` lets Python objects receive Open Sound Control (OSC) messages by address. This project models its routing core as pure functions over immutable data, and proves properties of that model. The core has three parts:

- **Registration** (`ooposc/register.py`).
  - `handleOSC` decorates a method with an address, a `pass_address` flag, extra keyword arguments and its owning class.
  - `dispatchOSC` builds a class table, bucketed by owning class, whose addresses are normalised to start with `/`.
  - `DynamicRegistrar.__init__` binds the class table's methods to the new instance.
  - `DynamicRegistrar.__setattr__` imports an assigned child's handlers under `"/" + key`. This is how nested objects compose addresses such as `/mixer/led/on`.
- **Dispatch** (`ooposc/osc.py`).
  - `MethodDispatcher` holds an ordered address table, a default handler, and a two-directional wildcard lookup. Its two regular expressions are modelled as the recursive predicates of module `Pattern`.
  - `OSCApp._map_methods` hands each pending table entry to the dispatcher exactly once.
  - `_call_handlers_for_packet` is modelled as the list of calls it makes.
  - `send`/`build_osc` choose the route and normalise the argument list.
  - `VirtualMulticastPythonOSC.get_request` drops an endpoint's own multicast echo.
- **Virtual endpoints** (`ooposc/virtualsocket.py`).
  - Addresses `("v192.168.X.Y", port)` are drawn from a duplicate-free process-wide pool.
  - A JSON envelope tags each datagram with its virtual sender and destination. A two-field variant exists at module level.

Modules, one file each:

| file | module |
|---|---|
| `wrappers.dfy` | `Wrappers`: `Option`, `Result` |
| `pydict.dfy` | `PyDict`: insertion-ordered `dict` |
| `utf8.dfy` | `Utf8`: strict UTF-8 (RFC 3629), both round trips |
| `pyvalue.dfy` | `PyValue`: Python/JSON values, truthiness, iteration |
| `decimal.dfy` | `Decimal`: `str(n)` and its parse |
| `register.dfy` | `Register`: `handleOSC`, `dispatchOSC` |
| `registrar.dfy` | `Registrar`: `DynamicRegistrar` |
| `pattern.dfy` | `Pattern`: the two address matches |
| `dispatcher.dfy` | `Dispatch`: `MethodDispatcher` |
| `app.dfy` | `App`: `OSCApp` |
| `virtualsocket.dfy` | `VirtualSocket` |
| `transport.dfy` | `Transport`: `send`, `build_osc`, `get_request` |

Python reflection becomes explicit input:
- `dir(cls)` is a list of `Attr`.
- `__qualname__` is a field of `Function`.
- `hasattr(value, ...)` is the shape of `Registrar.Assigned`.

`randint` draws are parameters. `json.loads` is given as its outcome, a `VirtualSocket.Loaded`: a parsed value, a `JSONDecodeError` (`NotJson`), or a `UnicodeDecodeError` from bytes that do not read as text (`NotText`). A Python `dict` is `PyDict.Dict`, which remembers insertion order: order decides which handler a later write overwrites and the order in which matched handlers are called.

## Model

| member | source | states |
|---|---|---|
| Register.OwningClass | ooposc/register.py:59 | the owning class is the longest dot-free prefix of the qualname, ending at its first `.` or at its end |
| Register.StripReserved | ooposc/register.py:41-57 | `_kwargs` keeps exactly the keywords other than `alias`, `pass_address` and `priority`, each with its value |
| Register.HandleOSC | ooposc/register.py:40-61 | the address is the alias verbatim, or `"/" + name` without one; `_pass_address` is the given value or a false one; `_priority` is present only when given; `_kwargs` holds every other keyword unchanged; the owning class is a dot-free prefix of the qualname |
| Register.DecoratorReuseDropsAlias | ooposc/register.py:41-45 | the decorator deletes `alias` from the dict it closes over, so a second function decorated by the same object gets `"/" + its own name` |
| Register.Normalize | ooposc/register.py:20-21 | a normalised address is non-empty and starts with `/`; it is the address itself or the address with `/` in front |
| Register.NormalizeIdempotent | ooposc/register.py:20-21 | a normalised address starts with `/`; a `/` is prepended only when missing; normalising twice equals normalising once |
| Register.File | ooposc/register.py:16-25 | filing one method raises `IndexError` exactly when its address is empty; otherwise the table stays well filed and loses no bucket |
| Register.PutAt | ooposc/register.py:16-25 | `t[impl][addr] = e` creates the bucket if missing, sets that one entry, and leaves every other entry and bucket as it was |
| Register.Scan | ooposc/register.py:10-25 | a scan of `dir()` that does not raise leaves the table well filed and loses no bucket |
| Register.DispatchOSC | ooposc/register.py:5-27 | on success the table always has a bucket named after the class, and holds only bare methods, each under its owning class and its own normalised address |
| Register.DispatchOSCFails | ooposc/register.py:20 | `dispatchOSC` raises `IndexError` exactly when some registered method in `dir()` has an empty address |
| Register.DispatchOSCBuckets | ooposc/register.py:7-19 | the buckets are exactly the class's own and the owning class of each registered method |
| Register.DispatchOSCLastWins | ooposc/register.py:10-25 | each entry is the last registered method in `dir()` order filed at that class and address; every entry comes from some registered method |
| Registrar.Seed | ooposc/register.py:83-90 | seeding adds exactly the bare class entries, each as `(method, self)` at the same class and address; other entries are unchanged |
| Registrar.Init | ooposc/register.py:79-90 | the own-class bucket comes first; every bare class entry becomes `(method, self)` at the same place; tuple entries are skipped; there are no other entries or buckets |
| Registrar.Resolve | ooposc/register.py:95-97 | an address is imported exactly when some bucket of the child holds it |
| Registrar.ResolveLast | ooposc/register.py:95-100 | the imported entry is the one of the last bucket, in the child's order, that holds the address; no later bucket holds it |
| Registrar.ImportBucket | ooposc/register.py:96-100 | importing one child bucket keeps the own bucket a valid dict and keeps its existing keys in place |
| Registrar.ImportBucketWrites | ooposc/register.py:96-100 | every address of the child bucket is written under the prefix, with the child's entry rebound to the owner when there is one |
| Registrar.ImportBucketKeeps | ooposc/register.py:96-100 | an own entry whose key is not the prefix plus an address of the child bucket keeps its value |
| Registrar.ImportBucketOrigin | ooposc/register.py:96-100 | every key after the import is an old key or the prefix plus an address of the child bucket |
| Registrar.ImportTable | ooposc/register.py:95-108 | importing every child bucket in order keeps the own bucket a valid dict and keeps its existing keys in place |
| Registrar.ImportTableFacts | ooposc/register.py:95-108 | after an import, each child address appears under the prefix with its rebound entry; every other entry is kept; nothing else is added |
| Registrar.SetAttr | ooposc/register.py:92-110 | an instance table's tuples arrive unchanged and a class table's methods arrive bound to the value, under `"/" + key + addr`; nothing is removed; no other bucket changes; a plain value changes no table; the attribute is stored (this is the path that does not raise) |
| Registrar.SelfImportAddsKey | ooposc/register.py:95-100 | when an object is assigned to an attribute of itself and its own bucket holds an address, the loop adds a new key to the bucket it is walking |
| Registrar.Assign | ooposc/register.py:92-110 | `__setattr__` raises `RuntimeError` exactly for a self-assignment whose own bucket holds an address, and otherwise imports and stores as `SetAttr` does |
| Registrar.SetAttrKeepsBound | ooposc/register.py:88-107 | instance tables hold only `(method, instance)` tuples after `__init__` and after every assignment |
| Registrar.ResolveUnique | ooposc/register.py:95-100 | when only one bucket of the child holds an address, the import takes that bucket's entry |
| Registrar.Composition | ooposc/register.py:92-110 | after `a.k1 = b` then `outer.k2 = a`, neither of which raises when `b` is not `a` with a non-empty own bucket and `outer` is not `a`, `outer` routes `/k2/k1<addr>` to the entry `b` holds for `addr`, when no other bucket of `a` holds `/k1<addr>` |
| Pattern.FullMatch | ooposc/osc.py:105-113 | an inbound pattern without `*` matches no text longer than itself |
| Pattern.InboundMatch | ooposc/osc.py:105-117 | with the `$` anchor, an inbound pattern without `*` matches no text more than one character longer than itself |
| Pattern.PrefixMatch | ooposc/osc.py:118-122 | a registered address without `*` matches only texts at least as long as itself |
| Pattern.Matches | ooposc/osc.py:116-124 | a registered address without `*` matches only through the inbound pattern |
| Pattern.LiteralInbound | ooposc/osc.py:105-117 | an inbound pattern without `?` or `*` matches only the identical address, or that address with one trailing newline (the `$` anchor) |
| Pattern.StarMatchesRuns | ooposc/osc.py:107-109 | an inbound `*` matches exactly the strings made of word characters, vertical bars and `+` |
| Pattern.QuestionMatchesAtMostOne | ooposc/osc.py:102-106 | an inbound `?` matches the empty string or one word character |
| Pattern.LiteralHead | ooposc/osc.py:102-113 | a literal head of an inbound pattern consumes exactly itself from the start of the text |
| Pattern.StarThenLiteral | ooposc/osc.py:107-113 | an inbound `*` followed by a literal tail matches a run of word characters, vertical bars and `+`, then exactly the tail |
| Pattern.StarInside | ooposc/osc.py:102-113 | a `*` between two literal parts matches exactly the texts made of the first part, such a run, and the second part |
| Pattern.QuestionInside | ooposc/osc.py:102-113 | a `?` between two literal parts matches exactly both parts joined, with nothing or one word character between them |
| Pattern.InboundStarExamples | ooposc/osc.py:102-113 | the inbound `/mix*/gain` matches `/mixA_1/gain` but not `/mix/a/gain` |
| Pattern.StarFreePrefix | ooposc/osc.py:118-122 | without `*`, the registered-address reading is a plain prefix test |
| Pattern.ExpansionMatches | ooposc/osc.py:118-122 | a text that starts with an expansion of a registered address matches it, each `*` expanded to a run without `/` and then a run of `/` |
| Pattern.MatchExpansion | ooposc/osc.py:118-122 | a text that matches a registered address starts with an expansion of it |
| Pattern.RegisteredStar | ooposc/osc.py:116-124 | a registered address matches exactly the texts that start with one of its expansions; for an address with `*`, `Matches` is the inbound test or this one |
| Pattern.ChannelStar | ooposc/osc.py:118-122 | a registered `/ch*/vol` matches `/ch` followed by any run without `/`, then `/vol` |
| Pattern.ChannelStarExamples | ooposc/osc.py:118-122 | `/ch*/vol` matches `/ch12/vol` and `/ch/vol` |
| Pattern.ChannelLiteralExample | ooposc/osc.py:116-124 | `/ch1/vol` does not match `/ch2/vol` |
| Dispatch.MapMethod | ooposc/osc.py:94-95 | the handler goes at the end of its address's list; a new address goes at the end of the table; every other list is unchanged |
| Dispatch.SetDefaultHandler | ooposc/osc.py:135-141 | only the default handler changes, and `None` unsets it |
| Dispatch.Collect | ooposc/osc.py:116-126 | the matched lists, concatenated: a handler is collected exactly when some matching address lists it; nothing is collected when no address matches |
| Dispatch.CollectAppend | ooposc/osc.py:116-126 | lookup follows table order: handlers of earlier addresses come before those of later ones |
| Dispatch.HandlersForAddress | ooposc/osc.py:97-133 | a handler is yielded exactly when a matching address lists it, or it is the default fallback (no instance, `args []`), which comes only when nothing matched and a default is set; when something matches, the result is `Collect` over the table, address by address in table order; real matches always carry an instance |
| Dispatch.HandlersForAddressAsWritten | ooposc/osc.py:90-133 | with the misspelt initialiser, a lookup that matches nothing raises `AttributeError` whenever a default handler is set |
| Dispatch.DefaultFallbackRaises | ooposc/osc.py:90-133 | with only a default handler set, the lookup as written raises, while the intended lookup yields the fallback |
| App.Step | ooposc/osc.py:173-185 | mapping one address appends one handler to that address's list, moves the entry from pending to `_mapped`, and changes nothing else |
| App.MapBucket | ooposc/osc.py:171-185 | the loop over one bucket's pending addresses changes only that class's entries, takes nothing back from `_mapped` or the dispatcher, and adds no `_mapped` bucket |
| App.MapBucketSettles | ooposc/osc.py:171-185 | after the loop over a snapshot of a bucket, every pending address of that class is mapped |
| App.MapImpl | ooposc/osc.py:165-187 | one pass of the loop changes only that class's entries and takes nothing back; a class without a bucket changes nothing |
| App.MapImplMoves | ooposc/osc.py:165-187 | a pending address not yet in `_mapped[impl]` is mapped once, with its method, its instance (the app for a bare method) and `[_kwargs]`, and is moved into `_mapped[impl]` |
| App.MapImplSkips | ooposc/osc.py:165-187 | an address the bucket lacks, or one already in `_mapped[impl]`, is neither remapped nor moved |
| App.MapMethods | ooposc/osc.py:156-187 | `_map_methods` touches only the class's and its direct bases' buckets, skips a missing bucket, and takes nothing back from `_mapped` or from the dispatcher |
| App.MapAll | ooposc/osc.py:165-187 | the passes over the class and its bases take nothing back, and leave every other class untouched |
| App.MapAllMoves | ooposc/osc.py:165-187 | across the passes, an unmapped pending address of a scanned class ends up in `_mapped` with its entry, leaves the pending bucket, and its handler is in the dispatcher's list for that address |
| App.MapAllSkips | ooposc/osc.py:173 | an address that no scanned class holds unmapped gets no new dispatcher handler |
| App.MapMethodsIdempotent | ooposc/osc.py:156-187 | a second `_map_methods` changes nothing |
| App.Init | ooposc/osc.py:150-154 | `OSCApp(name)` keeps the identity, class and bases, stores `name`, and leaves no default handler |
| App.InitMapsClassHandlers | ooposc/osc.py:150-154 | after `OSCApp(name)`, every bare class method of the class or a direct base is in the dispatcher, bound to the new object with `[_kwargs]`, and recorded as mapped |
| App.InitLeavesOtherClasses | ooposc/osc.py:158-161 | a bucket outside the class and its direct bases stays pending after `OSCApp(name)` |
| App.SetAttr | ooposc/osc.py:228-233 | with the intended remap, an assignment raises exactly when the registrar's does; otherwise it stores the attribute, and a plain value leaves the dispatcher and `_mapped` as they were |
| App.SetAttrMapsImport | ooposc/osc.py:228-233 | with the intended remap, every address a child contributes under `"/" + key` that was not mapped before reaches the dispatcher with the imported entry |
| App.SetAttrAsWritten | ooposc/osc.py:228-233 | as written, an assignment raises exactly when the registrar's does, and otherwise never changes the dispatcher or `_mapped` |
| App.ImportNeverMapped | ooposc/osc.py:232 | an imported address with no handler keeps none as written, but gets one with the intended remap |
| App.CallFor | ooposc/osc.py:207-216 | a call passes the receiver first, then the client address exactly when `_pass_address` is truthy, then the message arguments in order, and nothing else |
| App.MessageCalls | ooposc/osc.py:200-207 | a message makes one call per handler the lookup yields, in the lookup's order |
| App.Calls | ooposc/osc.py:198-223 | the calls of a packet are the calls of its messages |
| App.CallPlan | ooposc/osc.py:192-226 | a packet that does not parse makes no call |
| App.CallsAppend | ooposc/osc.py:198 | messages are handled in packet order: the plan of a concatenation is the concatenation of the plans |
| App.UnmatchedMessage | ooposc/osc.py:128-133 | an unmatched message calls only the default handler, with `None` as receiver, or nothing when no default is set |
| Transport.BuildArgs | ooposc/osc.py:336-339 | a non-iterable, `str` or `bytes` value is one argument; a list gives its items; a dict gives its keys |
| Transport.Send | ooposc/osc.py:351-360 | `send` multicasts to `239.0.0.1:5001` exactly when both `address` and `port` are `None`, and otherwise unicasts to `(address, port)`; `None` values give no arguments |
| Transport.ScalarIsOneArgument | ooposc/osc.py:336-337 | a scalar, `str` or `bytes` value travels as a single argument |
| Transport.VirtualBuild | ooposc/osc.py:403-405 | the virtual `build_osc` succeeds exactly when the datagram is UTF-8, and wraps its text in a broadcast envelope from the endpoint |
| Transport.Deliver | ooposc/osc.py:393-401 | a decoded envelope is passed on, re-encoded as UTF-8 with its virtual sender, exactly when its payload is text and its sender is not this endpoint; it yields nothing exactly for the own echo; a failed decode fails the same way; `decode` yielding `None` fails to unpack (`TypeError`), and a payload that is not text has no `encode` (`AttributeError`) |
| Transport.GetRequest | ooposc/osc.py:389-401 | with `decode` as evidently intended, a datagram from another physical address passes through unchanged, and one from the own physical address is delivered as its decoded envelope; nothing it passes on from the own physical address claims this endpoint as sender |
| Transport.UndecodableRaises | ooposc/osc.py:393-396 | bytes from the own physical address that do not read as text raise `UnicodeDecodeError` out of `get_request`, as written and as intended |
| Transport.GetRequestAsWritten | ooposc/osc.py:389-401 | as written, an envelope from the own physical address with a destination raises `TypeError`; everything else goes as in `GetRequest` |
| Transport.UnicastRequestRaises | ooposc/osc.py:393-399 | a unicast envelope from a peer on the same physical address raises `TypeError` as written, and arrives as the original datagram from the peer with the intended `decode` |
| Transport.OwnEchoDropped | ooposc/osc.py:393-401 | an endpoint drops its own multicast echo |
| Transport.PeerDelivered | ooposc/osc.py:393-399 | a peer's multicast arrives as the original datagram from the peer's virtual address |
| VirtualSocket.ParseHostName | ooposc/virtualsocket.py:23 | a host name `v192.168.X.Y` reads back as `X` and `Y` |
| VirtualSocket.HostNameInjective | ooposc/virtualsocket.py:23 | distinct draws give distinct host names |
| VirtualSocket.SetAddress | ooposc/virtualsocket.py:22-30 | the result is the first draw whose host is absent from the pool; that host is appended and the pool stays duplicate-free; the host is `v192.168.X.Y` with `X`, `Y` in 0..255; the port is in 50000..60000 |
| VirtualSocket.Address | ooposc/virtualsocket.py:11-15 | an endpoint with an address keeps it and allocates nothing; one without gets a fresh one |
| VirtualSocket.AddressStable | ooposc/virtualsocket.py:11-15 | once allocated, the address never changes |
| VirtualSocket.PayloadText | ooposc/virtualsocket.py:53-54 | text passes through; bytes decode exactly when they are UTF-8, to a text whose encoding is those bytes |
| VirtualSocket.Encode | ooposc/virtualsocket.py:50-61 | the envelope has exactly the keys `sender_address` (the endpoint's address), `to_address` (as given) and `data` (the payload text); bytes that are not UTF-8 raise `UnicodeDecodeError` |
| VirtualSocket.DecodeAsWritten | ooposc/virtualsocket.py:32-48 | as written, bytes that do not read as text raise `UnicodeDecodeError`; input that does not parse, or does not have exactly the three keys, gives `None`; any non-null destination raises `TypeError`; a `null` destination decodes as intended |
| VirtualSocket.Decode | ooposc/virtualsocket.py:32-48 | bytes that do not read as text raise `UnicodeDecodeError`, the only error besides a sender that is not iterable (`TypeError`); input that does not parse, or does not have exactly the three keys, gives `None`; an envelope for this endpoint or for everybody gives its data and its sender as a tuple; one for another endpoint gives the empty payload from `('', 0)` |
| VirtualSocket.BroadcastRoundTrip | ooposc/virtualsocket.py:44-61 | any endpoint decoding a broadcast gets the payload text and the sender's address; here the code as written agrees |
| VirtualSocket.UnicastRoundTrip | ooposc/virtualsocket.py:44-48 | a unicast reaches its destination once the destination is compared element-wise; as written it raises `TypeError` |
| VirtualSocket.UnicastToOther | ooposc/virtualsocket.py:44-48 | a unicast for another endpoint decodes to the empty payload from `('', 0)` |
| VirtualSocket.EncodeVsm | ooposc/virtualsocket.py:78-83 | the two-field envelope has exactly the keys `sender_address` and `data` |
| VirtualSocket.DecodeVsm | ooposc/virtualsocket.py:64-76 | a two-field envelope gives `(data, sender_address)`; bytes that do not read as text raise `UnicodeDecodeError`, the only error; any other input gives `None` |
| VirtualSocket.VsmRoundTrip | ooposc/virtualsocket.py:64-83 | decoding a two-field envelope gives back the payload text and the address; the text encodes back to the original bytes |
| VirtualSocket.VsmRejectsEnvelope | ooposc/virtualsocket.py:69-70 | the two-field decoder rejects a three-field envelope |
| VirtualSocket.DecodeRejectsVsm | ooposc/virtualsocket.py:37-38 | the endpoint decoder rejects a two-field envelope |
| Utf8.DecodeEncode | ooposc/virtualsocket.py:53-54 | decoding the UTF-8 encoding of a string gives the string back |
| Utf8.EncodeDecode | ooposc/virtualsocket.py:53-54 | well-formed UTF-8 bytes are exactly the encoding of their decoding |

## Left out

- Sockets, multicast membership, the server plumbing (`finish_request`, `handle`, `UDPMethodHandler`), threads and event loops (`ParallelApp`, `start_loop`). These are operating-system I/O and concurrency. `send` yields the message and its route instead of calling `sendto`. `get_request` takes what `recvfrom` returned.
- The `time.sleep` for messages time-stamped in the future, which needs a wall clock. The generator-truthiness test at `ooposc/osc.py:202` never skips a message, but its only effect is on that sleep, so the call plan is unaffected.
- python-osc's packet parser, message builder and base `Dispatcher`: their code is not part of this model. A parsed packet is given as a list of `App.Message`, with `None` for a `ParseError`. `build_osc`'s datagram is given as bytes.
- The `re` engine. The two compiled expressions are modelled as the predicates of `Pattern`. `\w` is taken as ASCII letters, digits and `_`. Registered addresses are assumed to hold no regular-expression metacharacter other than `*`.
- JSON text. `json.dumps` yields a `PyValue.Value`, and `json.loads` is given as its outcome, a `VirtualSocket.Loaded`. Which byte strings parse, and which fail to read as text, is not modelled.
- Lone surrogates. A peer's JSON envelope can carry an escaped surrogate such as `"\ud800"`, for which `data.encode('utf-8')` in `get_request` (`ooposc/osc.py:397`) raises `UnicodeEncodeError`. A Dafny `char` is a Unicode scalar value, so such text, and that error, are outside the model.
- `randint`, `warnings`, `logging`, `print` and the abstract `OSCInterface`. Random draws are parameters.
- `map_function` (`ooposc/osc.py:189-190`), which maps a plain function through python-osc's own `map`. Its handlers have no `instance` field, so the branch of `_call_handlers_for_packet` for them (`ooposc/osc.py:217-223`) is not modelled either: `Dispatch.Valid` requires every table handler to carry an instance.
- `connect` and `handle`, which only forward to sockets.
- Importing a child `OSCApp`'s `_mapped` bucket through `__setattr__`. Children are plain `DynamicRegistrar` objects, so `App.App` keeps `_mapped` as a field of its own rather than as a bucket of the instance table. This includes the self-assignment `app.x = app`: the own bucket is still empty after `__init__`, so Python does not raise, and it copies the `_mapped` bucket's dict values in as `"/x" + <class name>` entries. The model does not.
- `App.Init` records only the `name` attribute among the object's plain attributes.
- `_map_methods` iterates over a snapshot list of each bucket, so it never changes a dict it walks. `__setattr__` does when an object is assigned to an attribute of itself; `Registrar.Assign` models that case as a `RuntimeError`.
- Registrar.Assign: an assigned instance that is the registrar itself is required to carry the registrar's own table (`Registrar.Coherent`). In Python the two are one object, so nothing is excluded.
- Registrar.Assign: on `RuntimeError` no registrar is returned. Python has by then already written the imported entries up to the first new key into the own bucket.
- Registrar.SetAttr: a class table is assumed to be one `dispatchOSC` built (`Registrar.Importable`).
- Registrar.SetAttr: describes `__setattr__` when it does not raise. For a self-assignment whose own bucket holds an address, the source raises `RuntimeError` and stores nothing; `Registrar.Assign` states that case.
- Transport.GetRequest: uses `decode` as evidently intended (`VirtualSocket.Decode`). The code as written is `Transport.GetRequestAsWritten`, which raises `TypeError` for every envelope with a destination.
- Register.HandleOSC: requires a string `alias`, because the address is indexed and concatenated as a string later on.
- App.CallFor: the callee of the default handler is assumed to be a decorated method carrying `_pass_address`. A plain function there would raise `AttributeError`, and that case is not modelled.
- App.CallPlan: uses the intended lookup `Dispatch.HandlersForAddress`. The lookup as written, with its `AttributeError`, is modelled separately in `Dispatch.HandlersForAddressAsWritten`.
- VirtualSocket.SetAddress: requires a fresh draw among the given draws. With the pool exhausted, or after about a thousand colliding draws, `set_address` recurses until Python raises `RecursionError`, and that case is not modelled.
- VirtualSocket.AddressStable: this follows directly from `Address`'s contract.

## Findings

| source | as written | input that shows it | evidently intended | confidence | as-written member | corrected member |
|---|---|---|---|---|---|---|
| ooposc/osc.py:90-133 | the initialiser is spelt `_init__`, so it never runs and `_default_instance` is never set; the fallback reads it and raises `AttributeError` | a dispatcher with only a default handler set, and any inbound address | the fallback yields `MethodHandler(default, None, [])` | high (not executed) | Dispatch.HandlersForAddressAsWritten, Dispatch.DefaultFallbackRaises | Dispatch.HandlersForAddress |
| ooposc/osc.py:232 | `__setattr__` remaps only when the value has `_instance_handler_registry`, an attribute nothing defines, so the remap never runs | `app.child = r`, where `r` is a registrar holding `/on`: `/child/on` never reaches the dispatcher | remap when the value contributes handlers, i.e. when it has `_instance_handlers` or `_class_handlers` | high (not executed) | App.SetAttrAsWritten, App.ImportNeverMapped | App.SetAttr, App.SetAttrMapsImport |
| ooposc/virtualsocket.py:44-48 | a JSON destination decodes to a list, which never equals the address tuple; the fallback `bytes('')` then raises `TypeError` | `y.decode(x.encode(p, to_address=y.address))` | a unicast envelope is delivered to its destination, and one for another endpoint yields an empty payload | high (not executed) | VirtualSocket.DecodeAsWritten, VirtualSocket.UnicastRoundTrip, Transport.GetRequestAsWritten, Transport.UnicastRequestRaises | VirtualSocket.Decode, VirtualSocket.UnicastToOther, Transport.GetRequest |

=== FILE: app.dfy ===
/**
 * `OSCApp`: a registrar that hands its instance-level table to a
 * `MethodDispatcher`. `_map_methods` moves each not yet mapped address of the
 * own class and of its direct bases into the dispatcher and into the
 * `_mapped` bookkeeping table; `_call_handlers_for_packet` turns a parsed
 * packet into the sequence of handler calls it makes.
 */
module App {
  import opened Wrappers
  import opened PyValue
  import opened PyDict
  import opened Register
  import Registrar
  import opened Dispatch

  /**
   * An `OSCApp` object: its registrar state, the names of its class's direct
   * bases (`__class__.__bases__`), the `_instance_handlers['_mapped']` table
   * (class name -> address -> entry already handed to the dispatcher) and the
   * dispatcher.
   */
  datatype App = App(reg: Registrar.Registrar, bases: seq<string>, mapped: Table, disp: Dispatcher)

  ghost predicate Valid(app: App) {
    Registrar.Valid(app.reg) && TableValid(app.mapped) && Dispatch.Valid(app.disp)
  }

  /** `implementations`: the class name, then the direct bases' names. */
  function Implementations(app: App): seq<string> {
    [app.reg.cls] + app.bases
  }

  /** The entries of class `impl` still waiting to be mapped. */
  function Pending(app: App, impl: string): Bucket {
    if impl in app.reg.handlers.vals then app.reg.handlers.vals[impl] else Empty()
  }

  /** The entries of class `impl` already handed to the dispatcher. */
  function Done(app: App, impl: string): Bucket {
    if impl in app.mapped.vals then app.mapped.vals[impl] else Empty()
  }

  /** The handler `map_method` files for an entry: a `(method, instance)` tuple keeps
      its instance, a bare method is bound to the app itself; the method's
      `_kwargs` is the single extra argument. */
  function HandlerFor(app: App, e: Entry): MethodHandler {
    MethodHandler(e.m, Some(if e.Bound? then e.inst else app.reg.self), [Obj(e.m.kwargs)])
  }

  /** What mapping class `impl` may change: its own pending and mapped buckets and the dispatcher's table. */
  ghost predicate Frame(app: App, r: App, impl: string) {
    && r.reg.self == app.reg.self && r.reg.cls == app.reg.cls && r.reg.attrs == app.reg.attrs
    && r.bases == app.bases && r.disp.defaultHandler == app.disp.defaultHandler
    && r.reg.handlers.keys == app.reg.handlers.keys
    && (forall i | i != impl && i in app.reg.handlers.vals :: i in r.reg.handlers.vals && r.reg.handlers.vals[i] == app.reg.handlers.vals[i])
    && (forall i | i != impl :: i in r.mapped.vals <==> i in app.mapped.vals)
    && (forall i | i != impl && i in app.mapped.vals :: r.mapped.vals[i] == app.mapped.vals[i])
  }

  /** Mapping only ever adds: mapped entries stay, pending entries are only removed,
      and each dispatcher list only grows at its end. */
  ghost predicate Grows(app: App, r: App) {
    && (forall i, a | InTable(app.mapped, i, a) :: InTable(r.mapped, i, a) && At(r.mapped, i, a) == At(app.mapped, i, a))
    && (forall i, a | InTable(r.reg.handlers, i, a) :: InTable(app.reg.handlers, i, a) && At(r.reg.handlers, i, a) == At(app.reg.handlers, i, a))
    && (forall a :: Handlers(app.disp, a) <= Handlers(r.disp, a))
  }

  // ---------------------------------------------------------------------
  // _map_methods
  // ---------------------------------------------------------------------

  /** Lines 176-185 for one pending address `a` of class `impl` that is not yet mapped. */
  function Step(app: App, impl: string, a: string): (r: App)
    requires Valid(app) && impl in app.reg.handlers.vals && impl in app.mapped.vals
    requires a in Pending(app, impl).vals && a !in Done(app, impl).vals
    ensures Valid(r) && Frame(app, r, impl)
    ensures impl in r.reg.handlers.vals && impl in r.mapped.vals && r.mapped.keys == app.mapped.keys
    ensures Pending(r, impl).vals == Pending(app, impl).vals - {a}
    ensures Done(r, impl).vals == Done(app, impl).vals[a := Pending(app, impl).vals[a]]
    ensures Handlers(r.disp, a) == Handlers(app.disp, a) + [HandlerFor(app, Pending(app, impl).vals[a])]
    ensures forall x | x != a :: Handlers(r.disp, x) == Handlers(app.disp, x)
  {
    var e := Pending(app, impl).vals[a];
    app.(
      reg := app.reg.(handlers := Put(app.reg.handlers, impl, Pop(Pending(app, impl), a))),
      mapped := Put(app.mapped, impl, Put(Done(app, impl), a, e)),
      disp := MapMethod(app.disp, a, e.m, HandlerFor(app, e).instance.value, [Obj(e.m.kwargs)]))
  }

  lemma StepGrows(app: App, impl: string, a: string)
    requires Valid(app) && impl in app.reg.handlers.vals && impl in app.mapped.vals
    requires a in Pending(app, impl).vals && a !in Done(app, impl).vals
    ensures Grows(app, Step(app, impl, a))
  {
    var r := Step(app, impl, a);
    forall i, x | InTable(app.mapped, i, x) ensures InTable(r.mapped, i, x) && At(r.mapped, i, x) == At(app.mapped, i, x) {
      if i == impl {
        assert Done(app, impl) == app.mapped.vals[impl] && Done(r, impl) == r.mapped.vals[impl];
        assert x != a;
      }
    }
    forall i, x | InTable(r.reg.handlers, i, x)
      ensures InTable(app.reg.handlers, i, x) && At(r.reg.handlers, i, x) == At(app.reg.handlers, i, x)
    {
      if i == impl {
        assert Pending(app, impl) == app.reg.handlers.vals[impl] && Pending(r, impl) == r.reg.handlers.vals[impl];
      }
    }
    forall x ensures Handlers(app.disp, x) <= Handlers(r.disp, x) {
      if x == a {
        assert Handlers(r.disp, a) == Handlers(app.disp, a) + [HandlerFor(app, Pending(app, impl).vals[a])];
      }
    }
  }

  lemma FrameTrans(a: App, b: App, c: App, impl: string)
    requires Frame(a, b, impl) && Frame(b, c, impl)
    ensures Frame(a, c, impl)
  {
  }

  lemma GrowsTrans(a: App, b: App, c: App)
    requires Grows(a, b) && Grows(b, c)
    ensures Grows(a, c)
  {
    forall x ensures Handlers(a.disp, x) <= Handlers(c.disp, x) {
      assert Handlers(a.disp, x) <= Handlers(b.disp, x) <= Handlers(c.disp, x);
    }
  }

  /** The tail of a list of distinct addresses is distinct and lacks the head. */
  lemma Tail(addrs: seq<string>)
    requires Distinct(addrs) && addrs != []
    ensures Distinct(addrs[1..]) && addrs[0] !in addrs[1..]
    ensures forall x | x in addrs :: x == addrs[0] || x in addrs[1..]
    ensures forall x | x in addrs[1..] :: x in addrs
  {
    forall i, j | 0 <= i < j < |addrs[1..]| ensures addrs[1..][i] != addrs[1..][j] {
      assert addrs[1..][i] == addrs[i + 1] && addrs[1..][j] == addrs[j + 1];
    }
    forall j | 0 <= j < |addrs[1..]| ensures addrs[1..][j] != addrs[0] {
      assert addrs[1..][j] == addrs[j + 1];
    }
  }

  /** Lines 171-185 for class `impl`, over the snapshot `addrs` of its pending addresses. */
  function MapBucket(app: App, impl: string, addrs: seq<string>): (r: App)
    requires Valid(app) && impl in app.reg.handlers.vals && impl in app.mapped.vals
    requires Distinct(addrs) && forall a | a in addrs :: a in Pending(app, impl).vals
    ensures Valid(r) && Frame(app, r, impl) && Grows(app, r)
    ensures impl in r.reg.handlers.vals && impl in r.mapped.vals
    ensures r.mapped.keys == app.mapped.keys
    decreases |addrs|
  {
    if addrs == [] then app
    else
      var a := addrs[0];
      Tail(addrs);
      if a in Done(app, impl).vals then MapBucket(app, impl, addrs[1..])
      else
        var app1 := Step(app, impl, a);
        StepGrows(app, impl, a);
        var r := MapBucket(app1, impl, addrs[1..]);
        FrameTrans(app, app1, r, impl);
        GrowsTrans(app, app1, r);
        r
  }

  /** The two buckets agree on address `a`. */
  predicate SameAt(b1: Bucket, b2: Bucket, a: string) {
    (a in b1.vals <==> a in b2.vals) && (a in b1.vals ==> b1.vals[a] == b2.vals[a])
  }

  /** An address of the snapshot that is not yet mapped is handed to the dispatcher
      once, at the end of its list, and moved from pending to mapped. */
  lemma {:induction false} MapBucketMoves(app: App, impl: string, addrs: seq<string>, a: string)
    requires Valid(app) && impl in app.reg.handlers.vals && impl in app.mapped.vals
    requires Distinct(addrs) && forall x | x in addrs :: x in Pending(app, impl).vals
    requires a in addrs && a !in Done(app, impl).vals
    ensures var r := MapBucket(app, impl, addrs); var e := Pending(app, impl).vals[a];
      && a in Done(r, impl).vals && Done(r, impl).vals[a] == e
      && a !in Pending(r, impl).vals
      && Handlers(r.disp, a) == Handlers(app.disp, a) + [HandlerFor(app, e)]
    decreases |addrs|
  {
    var x := addrs[0];
    Tail(addrs);
    if x == a {
      MapBucketMovesHead(app, impl, addrs);
    } else if x in Done(app, impl).vals {
      MapBucketMoves(app, impl, addrs[1..], a);
    } else {
      var app1 := Step(app, impl, x);
      MapBucketMoves(app1, impl, addrs[1..], a);
    }
  }

  lemma MapBucketMovesHead(app: App, impl: string, addrs: seq<string>)
    requires Valid(app) && impl in app.reg.handlers.vals && impl in app.mapped.vals
    requires Distinct(addrs) && forall x | x in addrs :: x in Pending(app, impl).vals
    requires addrs != [] && addrs[0] !in Done(app, impl).vals
    ensures var r := MapBucket(app, impl, addrs); var a := addrs[0]; var e := Pending(app, impl).vals[a];
      && a in Done(r, impl).vals && Done(r, impl).vals[a] == e
      && a !in Pending(r, impl).vals
      && Handlers(r.disp, a) == Handlers(app.disp, a) + [HandlerFor(app, e)]
  {
    Tail(addrs);
    var app1 := Step(app, impl, addrs[0]);
    MapBucketSkips(app1, impl, addrs[1..], addrs[0]);
  }

  /** An address outside the snapshot, or already mapped, is left where it is
      and the dispatcher's list for it is unchanged. */
  lemma {:induction false} MapBucketSkips(app: App, impl: string, addrs: seq<string>, a: string)
    requires Valid(app) && impl in app.reg.handlers.vals && impl in app.mapped.vals
    requires Distinct(addrs) && forall x | x in addrs :: x in Pending(app, impl).vals
    requires a !in addrs || a in Done(app, impl).vals
    ensures var r := MapBucket(app, impl, addrs);
      && SameAt(Done(r, impl), Done(app, impl), a)
      && SameAt(Pending(r, impl), Pending(app, impl), a)
      && Handlers(r.disp, a) == Handlers(app.disp, a)
    decreases |addrs|
  {
    if addrs != [] {
      var x := addrs[0];
      Tail(addrs);
      if x in Done(app, impl).vals {
        MapBucketSkips(app, impl, addrs[1..], a);
      } else {
        assert x != a;
        var app1 := Step(app, impl, x);
        MapBucketSkips(app1, impl, addrs[1..], a);
      }
    }
  }

  /** Once every pending address of `impl` is mapped, the snapshot loop does nothing. */
  lemma {:induction false} MapBucketIdle(app: App, impl: string, addrs: seq<string>)
    requires Valid(app) && impl in app.reg.handlers.vals && impl in app.mapped.vals
    requires Distinct(addrs) && forall x | x in addrs :: x in Pending(app, impl).vals && x in Done(app, impl).vals
    ensures MapBucket(app, impl, addrs) == app
    decreases |addrs|
  {
    if addrs != [] {
      Tail(addrs);
      MapBucketIdle(app, impl, addrs[1..]);
    }
  }

  /** Every pending address of class `impl` has been handed to the dispatcher. */
  ghost predicate Settled(app: App, impl: string) {
    impl in app.reg.handlers.vals ==>
      impl in app.mapped.vals && forall a | a in Pending(app, impl).vals :: a in Done(app, impl).vals
  }

  /** Lines 165-187 for one implementation: create its `_mapped` bucket if
      needed, skip it when it has no instance bucket (the swallowed
      `KeyError`), else run the loop over a snapshot of its addresses. */
  function MapImpl(app: App, impl: string): (r: App)
    requires Valid(app)
    ensures Valid(r) && Frame(app, r, impl) && Grows(app, r)
    ensures impl !in app.reg.handlers.vals ==> r == app
  {
    if impl !in app.reg.handlers.vals then app
    else
      var app1 := WithBucket(app, impl);
      var r := MapBucket(app1, impl, Pending(app1, impl).keys);
      FrameTrans(app, app1, r, impl);
      GrowsTrans(app, app1, r);
      r
  }

  /** Line 168: `_mapped[impl] = {}` when class `impl` has no mapped bucket yet. */
  function WithBucket(app: App, impl: string): (r: App)
    requires Valid(app) && impl in app.reg.handlers.vals
    ensures Valid(r) && Frame(app, r, impl) && Grows(app, r)
    ensures impl in r.mapped.vals && r.reg == app.reg && r.disp == app.disp
    ensures Done(r, impl) == Done(app, impl)
  {
    if impl in app.mapped.vals then app else app.(mapped := Put(app.mapped, impl, Empty()))
  }

  /** After the loop over all its pending addresses, class `impl` is settled. */
  lemma MapBucketSettles(app: App, impl: string)
    requires Valid(app) && impl in app.reg.handlers.vals && impl in app.mapped.vals
    ensures Distinct(Pending(app, impl).keys)
    ensures Settled(MapBucket(app, impl, Pending(app, impl).keys), impl)
  {
    var addrs := Pending(app, impl).keys;
    var r := MapBucket(app, impl, addrs);
    forall a | a in Pending(r, impl).vals ensures a in Done(r, impl).vals {
      if a in Pending(app, impl).vals && a !in Done(app, impl).vals {
        MapBucketMoves(app, impl, addrs, a);
      } else {
        MapBucketSkips(app, impl, addrs, a);
      }
    }
  }

  /** After its pass, an implementation is settled. */
  lemma MapImplSettles(app: App, impl: string)
    requires Valid(app)
    ensures Settled(MapImpl(app, impl), impl)
  {
    if impl in app.reg.handlers.vals {
      MapBucketSettles(WithBucket(app, impl), impl);
    }
  }

  /** A settled implementation's pass changes nothing. */
  lemma MapImplIdle(app: App, impl: string)
    requires Valid(app) && Settled(app, impl)
    ensures MapImpl(app, impl) == app
  {
    if impl in app.reg.handlers.vals {
      MapBucketIdle(app, impl, Pending(app, impl).keys);
    }
  }

  /**
   * Per address: a pending address of `impl` that `_mapped[impl]` lacks is
   * mapped once with its entry's method, instance (the app itself for a bare
   * method) and `[_kwargs]`, and moved from pending to mapped.
   */
  lemma MapImplMoves(app: App, impl: string, a: string)
    requires Valid(app) && InTable(app.reg.handlers, impl, a) && a !in Done(app, impl).vals
    ensures var r := MapImpl(app, impl); var e := At(app.reg.handlers, impl, a);
      && a in Done(r, impl).vals && Done(r, impl).vals[a] == e
      && a !in Pending(r, impl).vals
      && Handlers(r.disp, a) == Handlers(app.disp, a) + [HandlerFor(app, e)]
  {
    var app1 := WithBucket(app, impl);
    MapBucketMoves(app1, impl, Pending(app1, impl).keys, a);
  }

  /** Per address: an address `impl` does not hold, or already holds in
      `_mapped[impl]`, is neither remapped nor moved. */
  lemma MapImplSkips(app: App, impl: string, a: string)
    requires Valid(app) && (!InTable(app.reg.handlers, impl, a) || a in Done(app, impl).vals)
    ensures var r := MapImpl(app, impl);
      && SameAt(Done(r, impl), Done(app, impl), a)
      && SameAt(Pending(r, impl), Pending(app, impl), a)
      && Handlers(r.disp, a) == Handlers(app.disp, a)
  {
    if impl in app.reg.handlers.vals {
      var app1 := WithBucket(app, impl);
      MapBucketSkips(app1, impl, Pending(app1, impl).keys, a);
    }
  }

  /** What no part of `_map_methods` changes. */
  ghost predicate Fixed(app: App, r: App) {
    && r.reg.self == app.reg.self && r.reg.cls == app.reg.cls && r.reg.attrs == app.reg.attrs
    && r.bases == app.bases && r.disp.defaultHandler == app.disp.defaultHandler
    && r.reg.handlers.keys == app.reg.handlers.keys
  }

  /** Class `i` has the same pending and mapped buckets in both states. */
  ghost predicate Untouched(app: App, r: App, i: string) {
    && (i in r.reg.handlers.vals <==> i in app.reg.handlers.vals) && Pending(r, i) == Pending(app, i)
    && (i in r.mapped.vals <==> i in app.mapped.vals) && Done(r, i) == Done(app, i)
  }

  /** The passes of lines 165-187 over the implementations `impls`, in order. */
  function MapAll(app: App, impls: seq<string>): (r: App)
    requires Valid(app)
    ensures Valid(r) && Fixed(app, r) && Grows(app, r)
    ensures forall i | i !in impls :: Untouched(app, r, i)
    decreases |impls|
  {
    if impls == [] then app
    else
      var r1 := MapImpl(app, impls[0]);
      var r := MapAll(r1, impls[1..]);
      GrowsTrans(app, r1, r);
      MapAllFrame(app, r1, r, impls);
      r
  }

  /** One pass followed by the passes over the remaining implementations touches only the implementations named. */
  lemma MapAllFrame(app: App, r1: App, r: App, impls: seq<string>)
    requires Valid(app) && Valid(r1) && impls != [] && Frame(app, r1, impls[0]) && Fixed(r1, r)
    requires forall i | i !in impls[1..] :: Untouched(r1, r, i)
    ensures Fixed(app, r)
    ensures forall i | i !in impls :: Untouched(app, r, i)
  {
    forall i | i !in impls ensures Untouched(app, r, i) {
      assert i != impls[0] && i !in impls[1..];
      assert Untouched(app, r1, i);
    }
  }

  /**
   * `_map_methods()`: only the buckets named after the class and its direct
   * bases are scanned (any other class's bucket is untouched), a missing
   * bucket is skipped, and nothing already handed over is taken back.
   */
  function MapMethods(app: App): (r: App)
    requires Valid(app)
    ensures Valid(r) && Fixed(app, r) && Grows(app, r)
    ensures forall i | i !in Implementations(app) :: Untouched(app, r, i)
  {
    MapAll(app, Implementations(app))
  }

  lemma {:induction false} MapAllSettles(app: App, impls: seq<string>)
    requires Valid(app)
    ensures forall i | i in impls :: Settled(MapAll(app, impls), i)
    decreases |impls|
  {
    if impls != [] {
      var r1 := MapImpl(app, impls[0]);
      MapImplSettles(app, impls[0]);
      MapAllSettles(r1, impls[1..]);
      assert forall i | i in impls :: i == impls[0] || i in impls[1..];
    }
  }

  lemma {:induction false} MapAllIdle(app: App, impls: seq<string>)
    requires Valid(app) && forall i | i in impls :: Settled(app, i)
    ensures MapAll(app, impls) == app
    decreases |impls|
  {
    if impls != [] {
      MapImplIdle(app, impls[0]);
      assert forall i | i in impls[1..] :: i in impls;
      MapAllIdle(app, impls[1..]);
    }
  }

  /** `_map_methods` is idempotent: a second call (for instance the remap after
      an assignment that added nothing new) changes nothing. */
  lemma MapMethodsIdempotent(app: App)
    requires Valid(app)
    ensures MapMethods(MapMethods(app)) == MapMethods(app)
  {
    var r := MapMethods(app);
    MapAllSettles(app, Implementations(app));
    assert Implementations(r) == Implementations(app);
    MapAllIdle(r, Implementations(r));
  }

  /** What `Grows` keeps about one address. */
  lemma GrowsKeeps(app: App, r: App, impl: string, a: string, h: MethodHandler)
    requires Grows(app, r)
    requires a in Done(app, impl).vals && impl in app.mapped.vals && a !in Pending(app, impl).vals
    requires h in Handlers(app.disp, a)
    ensures InTable(r.mapped, impl, a) && At(r.mapped, impl, a) == Done(app, impl).vals[a]
    ensures !InTable(r.reg.handlers, impl, a)
    ensures h in Handlers(r.disp, a)
  {
    assert InTable(app.mapped, impl, a);
    assert Handlers(app.disp, a) <= Handlers(r.disp, a);
  }

  /** An address an implementation holds but has not mapped ends up mapped
      with its entry, and leaves the pending bucket. */
  lemma {:induction false} MapAllMoves(app: App, impls: seq<string>, impl: string, a: string)
    requires Valid(app) && impl in impls
    requires InTable(app.reg.handlers, impl, a) && a !in Done(app, impl).vals
    ensures var r := MapAll(app, impls); var e := At(app.reg.handlers, impl, a);
      && InTable(r.mapped, impl, a) && At(r.mapped, impl, a) == e
      && !InTable(r.reg.handlers, impl, a)
      && HandlerFor(app, e) in Handlers(r.disp, a)
    decreases |impls|
  {
    if impls[0] == impl {
      MapAllMovesHead(app, impls, a);
    } else {
      var r1 := MapImpl(app, impls[0]);
      MapImplKeepsOther(app, impls[0], impl, a);
      MapAllMoves(r1, impls[1..], impl, a);
    }
  }

  lemma MapAllMovesHead(app: App, impls: seq<string>, a: string)
    requires Valid(app) && impls != []
    requires InTable(app.reg.handlers, impls[0], a) && a !in Done(app, impls[0]).vals
    ensures var r := MapAll(app, impls); var e := At(app.reg.handlers, impls[0], a);
      && InTable(r.mapped, impls[0], a) && At(r.mapped, impls[0], a) == e
      && !InTable(r.reg.handlers, impls[0], a)
      && HandlerFor(app, e) in Handlers(r.disp, a)
  {
    var e := At(app.reg.handlers, impls[0], a);
    var r1 := MapImpl(app, impls[0]);
    MapImplMoves(app, impls[0], a);
    GrowsKeeps(r1, MapAll(r1, impls[1..]), impls[0], a, HandlerFor(app, e));
  }

  /** Another implementation's pass leaves class `impl`'s pending entry at `a` in place. */
  lemma MapImplKeepsOther(app: App, i: string, impl: string, a: string)
    requires Valid(app) && i != impl
    requires InTable(app.reg.handlers, impl, a) && a !in Done(app, impl).vals
    ensures var r1 := MapImpl(app, i);
      && InTable(r1.reg.handlers, impl, a) && At(r1.reg.handlers, impl, a) == At(app.reg.handlers, impl, a)
      && a !in Done(r1, impl).vals && r1.reg.self == app.reg.self
  {
  }

  /** An address no implementation holds unmapped gets no new dispatcher handler. */
  lemma {:induction false} MapAllSkips(app: App, impls: seq<string>, a: string)
    requires Valid(app)
    requires forall i | i in impls :: !InTable(app.reg.handlers, i, a) || a in Done(app, i).vals
    ensures Handlers(MapAll(app, impls).disp, a) == Handlers(app.disp, a)
    decreases |impls|
  {
    if impls != [] {
      var r1 := MapImpl(app, impls[0]);
      MapImplSkips(app, impls[0], a);
      forall i | i in impls[1..] ensures !InTable(r1.reg.handlers, i, a) || a in Done(r1, i).vals {
        assert i in impls;
        if i != impls[0] {
          assert Pending(r1, i) == Pending(app, i) && Done(r1, i) == Done(app, i);
        }
      }
      MapAllSkips(r1, impls[1..], a);
    }
  }

  // ---------------------------------------------------------------------
  // __init__ and __setattr__
  // ---------------------------------------------------------------------

  /**
   * `OSCApp(name)` for an object `self` of class `cls` with direct bases
   * `bases` and class table `ct`: the registrar is initialised, `name` is
   * stored, and `_map_methods` runs on a fresh dispatcher.
   */
  function Init(self: Inst, cls: string, bases: seq<string>, ct: Table, name: Value): (r: App)
    requires TableValid(ct)
    ensures Valid(r) && r.reg.self == self && r.reg.cls == cls && r.bases == bases
    ensures r.reg.attrs == map["name" := Registrar.Plain(name)]
    ensures r.disp.defaultHandler.None?
  {
    MapMethods(App(Named(self, cls, ct, name), bases, Empty(), New()))
  }

  /** The registrar as `__init__` leaves it before `_map_methods`: every method the class
      table files under a class that has a bucket of its own, bound to `self`, and `name` stored. */
  function Named(self: Inst, cls: string, ct: Table, name: Value): (reg: Registrar.Registrar)
    requires TableValid(ct)
    ensures Registrar.Valid(reg) && reg.self == self && reg.cls == cls
    ensures reg.attrs == map["name" := Registrar.Plain(name)]
    ensures forall impl, addr :: InTable(reg.handlers, impl, addr) <==> Registrar.Seeds(ct, impl, addr)
    ensures forall impl, addr | Registrar.Seeds(ct, impl, addr) ::
      InTable(reg.handlers, impl, addr) && At(reg.handlers, impl, addr) == Bound(At(ct, impl, addr).m, self)
  {
    Registrar.SetAttr(Registrar.Init(self, cls, ct), "name", Registrar.Plain(name))
  }

  /** After `__init__`, every method the class table files under the class or one of
      its direct bases is in the dispatcher, bound to the new object with its
      `_kwargs` as argument, and recorded as mapped. */
  lemma InitMapsClassHandlers(self: Inst, cls: string, bases: seq<string>, ct: Table, name: Value, impl: string, addr: string)
    requires TableValid(ct) && impl in [cls] + bases && Registrar.Seeds(ct, impl, addr)
    ensures var r := Init(self, cls, bases, ct, name); var m := At(ct, impl, addr).m;
      && MethodHandler(m, Some(self), [Obj(m.kwargs)]) in Handlers(r.disp, addr)
      && InTable(r.mapped, impl, addr) && At(r.mapped, impl, addr) == Bound(m, self)
      && !InTable(r.reg.handlers, impl, addr)
  {
    var app := App(Named(self, cls, ct, name), bases, Empty(), New());
    var m := At(ct, impl, addr).m;
    assert InTable(app.reg.handlers, impl, addr) && At(app.reg.handlers, impl, addr) == Bound(m, self);
    assert HandlerFor(app, Bound(m, self)) == MethodHandler(m, Some(self), [Obj(m.kwargs)]);
    MapAllMoves(app, Implementations(app), impl, addr);
  }

  /** A class bucket outside the class and its direct bases stays pending. */
  lemma InitLeavesOtherClasses(self: Inst, cls: string, bases: seq<string>, ct: Table, name: Value, impl: string, addr: string)
    requires TableValid(ct) && impl !in [cls] + bases
    ensures var r := Init(self, cls, bases, ct, name);
      InTable(r.reg.handlers, impl, addr) <==> Registrar.Seeds(ct, impl, addr)
  {
    var app := App(Named(self, cls, ct, name), bases, Empty(), New());
    var r := MapMethods(app);
    assert Untouched(app, r, impl);
    assert InTable(r.reg.handlers, impl, addr) <==> addr in Pending(r, impl).vals;
  }

  /**
   * `OSCApp.__setattr__(key, value)` as evidently intended: the registrar
   * imports the value's handlers and, when it imported any, the table is
   * remapped so that the new addresses reach the dispatcher. A
   * self-assignment that makes the import raise leaves nothing behind.
   */
  function SetAttr(app: App, key: string, value: Registrar.Assigned): (r: Result<App, PyError>)
    requires Valid(app) && Registrar.Importable(value) && Registrar.Coherent(app.reg, value)
    ensures r.Failure? <==> Registrar.SelfRaises(app.reg, value)
    ensures r.Success? ==> Valid(r.value) && r.value.reg.attrs == app.reg.attrs[key := value]
    ensures r.Success? && value.Plain? ==> r.value.disp == app.disp && r.value.mapped == app.mapped
  {
    match Registrar.Assign(app.reg, key, value)
    case Failure(e) => Failure(e)
    case Success(reg) =>
      var app1 := app.(reg := reg);
      Success(if value.Plain? then app1 else MapMethods(app1))
  }

  /** `OSCApp.__setattr__(key, value)` as written: the remap tests for
      `_instance_handler_registry`, an attribute nothing defines, so it never runs. */
  function SetAttrAsWritten(app: App, key: string, value: Registrar.Assigned): (r: Result<App, PyError>)
    requires Valid(app) && Registrar.Importable(value) && Registrar.Coherent(app.reg, value)
    ensures r.Failure? <==> Registrar.SelfRaises(app.reg, value)
    ensures r.Success? ==> Valid(r.value) && r.value.reg.attrs == app.reg.attrs[key := value]
    ensures r.Success? ==> r.value.disp == app.disp && r.value.mapped == app.mapped
  {
    match Registrar.Assign(app.reg, key, value)
    case Failure(e) => Failure(e)
    case Success(reg) => Success(app.(reg := reg))
  }

  /** After an assignment that does not raise, every address the child contributes under
      `"/" + key` that was not mapped before reaches the dispatcher with the imported entry. */
  lemma SetAttrMapsImport(app: App, key: string, value: Registrar.Assigned, addr: string)
    requires Valid(app) && Registrar.Importable(value) && Registrar.Coherent(app.reg, value) && !value.Plain?
    requires !Registrar.SelfRaises(app.reg, value)
    requires Registrar.Swept(value, addr).Some? && "/" + key + addr !in Done(app, app.reg.cls).vals
    ensures var r := SetAttr(app, key, value); var x := "/" + key + addr;
      var e := Registrar.Rebind(Registrar.Swept(value, addr).value, Registrar.Owner(value));
      && r.Success?
      && InTable(r.value.mapped, app.reg.cls, x) && At(r.value.mapped, app.reg.cls, x) == e
      && HandlerFor(app, e) in Handlers(r.value.disp, x)
  {
    var reg1 := Registrar.SetAttr(app.reg, key, value);
    var app1 := app.(reg := reg1);
    var x := "/" + key + addr;
    var e := Registrar.Rebind(Registrar.Swept(value, addr).value, Registrar.Owner(value));
    assert x in Registrar.Own(reg1).vals && Registrar.Own(reg1).vals[x] == e;
    assert InTable(app1.reg.handlers, app.reg.cls, x) && At(app1.reg.handlers, app.reg.cls, x) == e;
    assert HandlerFor(app1, e) == HandlerFor(app, e);
    MapAllMoves(app1, Implementations(app1), app.reg.cls, x);
  }

  /** The discrepancy: with the remap test as written, a freshly imported address
      that had no handler stays without one, while the intended remap maps it. */
  lemma ImportNeverMapped(app: App, key: string, value: Registrar.Assigned, addr: string)
    requires Valid(app) && Registrar.Importable(value) && Registrar.Coherent(app.reg, value) && !value.Plain?
    requires !Registrar.SelfRaises(app.reg, value)
    requires Registrar.Swept(value, addr).Some? && "/" + key + addr !in Done(app, app.reg.cls).vals
    requires Handlers(app.disp, "/" + key + addr) == []
    ensures SetAttrAsWritten(app, key, value).Success?
    ensures Handlers(SetAttrAsWritten(app, key, value).value.disp, "/" + key + addr) == []
    ensures Handlers(SetAttr(app, key, value).value.disp, "/" + key + addr) != []
  {
    SetAttrMapsImport(app, key, value, addr);
  }

  // ---------------------------------------------------------------------
  // _call_handlers_for_packet
  // ---------------------------------------------------------------------

  /** An OSC message of a parsed packet: its address and its arguments. */
  datatype Message = Message(address: string, params: seq<Value>)

  /** One argument of a handler call. */
  datatype Arg = Receiver(inst: Option<Inst>) | Client(peer: Value) | Param(v: Value)

  /** One handler call: the method and its positional arguments. */
  datatype Call = Call(callee: Method, args: seq<Arg>)

  /**
   * Lines 212-218: a `MethodHandler` always has an `instance` field, so the
   * receiver is always passed first (`None` for the default handler); the
   * client address follows exactly when the method's `_pass_address` is
   * truthy; the message's arguments come last, in order.
   */
  function CallFor(h: MethodHandler, msg: Message, client: Value): (c: Call)
    ensures c.callee == h.callback
    ensures |c.args| == 1 + (if Truthy(h.callback.passAddress) then 1 else 0) + |msg.params|
    ensures c.args[0] == Receiver(h.instance)
    ensures (exists i | 0 <= i < |c.args| :: c.args[i].Client?) <==> Truthy(h.callback.passAddress)
    ensures Truthy(h.callback.passAddress) ==> c.args[1] == Client(client)
    ensures forall j | 0 <= j < |msg.params| :: c.args[|c.args| - |msg.params| + j] == Param(msg.params[j])
  {
    var lead := [Receiver(h.instance)] + (if Truthy(h.callback.passAddress) then [Client(client)] else []);
    var params := seq(|msg.params|, j requires 0 <= j < |msg.params| => Param(msg.params[j]));
    assert Truthy(h.callback.passAddress) ==> lead[1].Client?;
    LeadThenParams(lead, params);
    Call(h.callback, lead + params)
  }

  /** Appending parameters to the leading arguments keeps them at the tail and adds no `Client`. */
  lemma LeadThenParams(lead: seq<Arg>, params: seq<Arg>)
    requires forall j | 0 <= j < |params| :: params[j].Param?
    ensures forall j | 0 <= j < |params| :: (lead + params)[|lead| + j] == params[j]
    ensures (exists i | 0 <= i < |lead + params| :: (lead + params)[i].Client?) <==> exists i | 0 <= i < |lead| :: lead[i].Client?
  {
    var args := lead + params;
    assert forall i | |lead| <= i < |args| :: args[i] == params[i - |lead|];
    if i :| 0 <= i < |args| && args[i].Client? {
      assert i < |lead|;
      assert lead[i] == args[i];
    }
    if i :| 0 <= i < |lead| && lead[i].Client? {
      assert args[i] == lead[i];
    }
  }

  /** The calls one message triggers: one per handler `handlers_for_address` yields, in order. */
  function MessageCalls(d: Dispatcher, msg: Message, client: Value): (r: seq<Call>)
    requires Dispatch.Valid(d)
    ensures |r| == |HandlersForAddress(d, msg.address)|
    ensures forall i | 0 <= i < |r| :: r[i] == CallFor(HandlersForAddress(d, msg.address)[i], msg, client)
    ensures forall c :: c in r <==> exists h | h in HandlersForAddress(d, msg.address) :: c == CallFor(h, msg, client)
  {
    var hs := HandlersForAddress(d, msg.address);
    var r := seq(|hs|, i requires 0 <= i < |hs| => CallFor(hs[i], msg, client));
    assert forall h | h in hs :: CallFor(h, msg, client) in r by {
      forall h | h in hs ensures CallFor(h, msg, client) in r {
        var i :| 0 <= i < |hs| && hs[i] == h;
        assert r[i] == CallFor(h, msg, client);
      }
    }
    r
  }

  /** The calls of the messages `msgs`, message by message. */
  function Calls(d: Dispatcher, msgs: seq<Message>, client: Value): (r: seq<Call>)
    requires Dispatch.Valid(d)
    ensures forall c :: c in r <==> exists i | 0 <= i < |msgs| :: c in MessageCalls(d, msgs[i], client)
    decreases |msgs|
  {
    if msgs == [] then []
    else
      var rest := Calls(d, msgs[1..], client);
      assert forall i | 1 <= i < |msgs| :: msgs[1..][i - 1] == msgs[i];
      MessageCalls(d, msgs[0], client) + rest
  }

  /**
   * `_call_handlers_for_packet(data, client_address)` with the intended
   * dispatcher lookup: `packet` is the parse result (`None` for a
   * `ParseError`, which is reported and swallowed, so nothing is called).
   */
  function CallPlan(d: Dispatcher, packet: Option<seq<Message>>, client: Value): (r: seq<Call>)
    requires Dispatch.Valid(d)
    ensures packet.None? ==> r == []
    ensures packet.Some? ==> forall c :: c in r <==> exists i | 0 <= i < |packet.value| :: c in MessageCalls(d, packet.value[i], client)
  {
    if packet.None? then [] else Calls(d, packet.value, client)
  }

  /** Messages are handled in packet order: the plan of a concatenation is the
      concatenation of the plans. */
  lemma {:induction false} CallsAppend(d: Dispatcher, m1: seq<Message>, m2: seq<Message>, client: Value)
    requires Dispatch.Valid(d)
    ensures Calls(d, m1 + m2, client) == Calls(d, m1, client) + Calls(d, m2, client)
    decreases |m1|
  {
    if m1 == [] {
      assert m1 + m2 == m2;
    } else {
      assert (m1 + m2)[0] == m1[0];
      assert (m1 + m2)[1..] == m1[1..] + m2;
      CallsAppend(d, m1[1..], m2, client);
    }
  }

  /** A message no registered address matches goes to the default handler,
      with `None` as its receiver, or to nobody when no default is set. */
  lemma UnmatchedMessage(d: Dispatcher, msg: Message, client: Value)
    requires Dispatch.Valid(d) && !AnyMatch(d.table.keys, msg.address)
    ensures d.defaultHandler.None? ==> MessageCalls(d, msg, client) == []
    ensures d.defaultHandler.Some? ==>
      && |MessageCalls(d, msg, client)| == 1
      && MessageCalls(d, msg, client)[0].callee == d.defaultHandler.value
      && MessageCalls(d, msg, client)[0].args[0] == Receiver(None)
  {
    if d.defaultHandler.Some? {
      var c := MessageCalls(d, msg, client)[0];
      assert c in MessageCalls(d, msg, client);
    }
  }
}

=== FILE: decimal.dfy ===
/** `str(n)` for a non-negative int, and the parse that undoes it. */
module Decimal {
  import opened Wrappers

  predicate IsDigit(c: char) {
    '0' <= c <= '9'
  }

  function DigitChar(d: nat): (c: char)
    requires d < 10
    ensures IsDigit(c) && c as int - '0' as int == d
  {
    ('0' as int + d) as char
  }

  /** `str(n)`: the shortest decimal numeral of `n`. */
  function Show(n: nat): (s: string)
    ensures 1 <= |s|
    ensures forall i | 0 <= i < |s| :: IsDigit(s[i])
  {
    if n < 10 then [DigitChar(n)] else Show(n / 10) + [DigitChar(n % 10)]
  }

  /** The value of a non-empty run of decimal digits; `None` for anything else. */
  function ParseDigits(s: string): Option<nat> {
    if |s| == 0 || !IsDigit(s[|s| - 1]) then None
    else
      var d := s[|s| - 1] as int - '0' as int;
      if |s| == 1 then Some(d)
      else match ParseDigits(s[..|s| - 1])
        case None => None
        case Some(p) => Some(p * 10 + d)
  }

  /** Parsing a numeral gives back its number. */
  lemma {:induction false} ParseShow(n: nat)
    ensures ParseDigits(Show(n)) == Some(n)
  {
    if n >= 10 {
      var s := Show(n);
      assert s[..|s| - 1] == Show(n / 10);
      ParseShow(n / 10);
    }
  }
}

=== FILE: dispatcher.dfy ===
/**
 * `MethodDispatcher`: the address table `_map` (each address with the list
 * of handlers mapped to it, in insertion order), the default handler, and
 * the two-directional wildcard lookup `handlers_for_address`.
 */
module Dispatch {
  import opened Wrappers
  import opened PyValue
  import opened PyDict
  import opened Register
  import opened Pattern

  /** `MethodHandler(callback, instance, args)` */
  datatype MethodHandler = MethodHandler(callback: Method, instance: Option<Inst>, args: seq<Value>)

  /** `_map` and `_default_handler`. */
  datatype Dispatcher = Dispatcher(table: Dict<string, seq<MethodHandler>>, defaultHandler: Option<Method>)

  /** Handlers in `_map` always come from `map_method`, which binds an instance. */
  ghost predicate Valid(d: Dispatcher) {
    && d.table.Valid()
    && forall a, h | a in d.table.vals && h in d.table.vals[a] :: h.instance.Some?
  }

  /** A dispatcher fresh from `Dispatcher.__init__`. */
  function New(): (d: Dispatcher)
    ensures Valid(d) && d.table.keys == [] && d.defaultHandler.None?
  {
    Dispatcher(Empty(), None)
  }

  /** `self._map[address]` on the `defaultdict(list)`. */
  function Handlers(d: Dispatcher, address: string): seq<MethodHandler> {
    if address in d.table.vals then d.table.vals[address] else []
  }

  /** `map_method(address, handler, instance, *args)`: the handler goes at the end
      of the address's list; a new address goes at the end of the table. */
  function MapMethod(d: Dispatcher, address: string, handler: Method, instance: Inst, args: seq<Value>): (d': Dispatcher)
    requires Valid(d)
    ensures Valid(d') && d'.defaultHandler == d.defaultHandler
    ensures Handlers(d', address) == Handlers(d, address) + [MethodHandler(handler, Some(instance), args)]
    ensures forall a | a != address :: Handlers(d', a) == Handlers(d, a)
    ensures d'.table.vals.Keys == d.table.vals.Keys + {address}
    ensures d.table.keys <= d'.table.keys
    ensures address !in d.table.vals ==> d'.table.keys == d.table.keys + [address]
  {
    d.(table := Put(d.table, address, Handlers(d, address) + [MethodHandler(handler, Some(instance), args)]))
  }

  /** `set_default_handler(handler)`; `None` unsets it. */
  function SetDefaultHandler(d: Dispatcher, handler: Option<Method>): (d': Dispatcher)
    ensures d'.table == d.table && d'.defaultHandler == handler
  {
    d.(defaultHandler := handler)
  }

  /** Some registered address in `keys` matches the inbound pattern. */
  predicate AnyMatch(keys: seq<string>, pattern: string) {
    exists k | k in keys :: Matches(k, pattern)
  }

  /** The handler lists of the matching addresses among `keys`, concatenated in order. */
  function Collect(d: Dispatcher, keys: seq<string>, pattern: string): (r: seq<MethodHandler>)
    ensures forall h :: h in r <==> exists i | 0 <= i < |keys| :: Matches(keys[i], pattern) && h in Handlers(d, keys[i])
    ensures !AnyMatch(keys, pattern) ==> r == []
    decreases |keys|
  {
    if keys == [] then []
    else
      var rest := Collect(d, keys[1..], pattern);
      assert forall i | 1 <= i < |keys| :: keys[1..][i - 1] == keys[i];
      assert forall k | k in keys[1..] :: k in keys;
      (if Matches(keys[0], pattern) then Handlers(d, keys[0]) else []) + rest
  }

  /** Table order: the handlers of earlier addresses come before those of later ones. */
  lemma {:induction false} CollectAppend(d: Dispatcher, k1: seq<string>, k2: seq<string>, pattern: string)
    ensures Collect(d, k1 + k2, pattern) == Collect(d, k1, pattern) + Collect(d, k2, pattern)
    decreases |k1|
  {
    if k1 == [] {
      assert k1 + k2 == k2;
    } else {
      assert (k1 + k2)[0] == k1[0];
      assert (k1 + k2)[1..] == k1[1..] + k2;
      CollectAppend(d, k1[1..], k2, pattern);
    }
  }

  /** The handler `handlers_for_address` falls back to. */
  function Fallback(m: Method): MethodHandler {
    MethodHandler(m, None, [])
  }

  /**
   * `handlers_for_address(pattern)` as evidently intended (the default
   * instance initialised to `None`): the matched handlers, address by
   * address in table order; when no address matches, the default handler
   * with no bound instance and empty `args`, if one is set.
   */
  function HandlersForAddress(d: Dispatcher, pattern: string): (r: seq<MethodHandler>)
    requires Valid(d)
    ensures forall h :: h in r <==>
      || (exists k | k in d.table.keys :: Matches(k, pattern) && h in d.table.vals[k])
      || (!AnyMatch(d.table.keys, pattern) && d.defaultHandler.Some? && h == Fallback(d.defaultHandler.value))
    ensures AnyMatch(d.table.keys, pattern) ==> r == Collect(d, d.table.keys, pattern)
    ensures AnyMatch(d.table.keys, pattern) ==> forall h | h in r :: h.instance.Some?
    ensures !AnyMatch(d.table.keys, pattern) ==> r == if d.defaultHandler.Some? then [Fallback(d.defaultHandler.value)] else []
  {
    var matched := Collect(d, d.table.keys, pattern);
    assert forall k | k in d.table.keys :: k in d.table.vals;
    assert forall h :: h in matched <==> exists k | k in d.table.keys :: Matches(k, pattern) && h in d.table.vals[k] by {
      forall h ensures h in matched <==> exists k | k in d.table.keys :: Matches(k, pattern) && h in d.table.vals[k] {
        if h in matched {
          var i :| 0 <= i < |d.table.keys| && Matches(d.table.keys[i], pattern) && h in Handlers(d, d.table.keys[i]);
          assert d.table.keys[i] in d.table.keys;
        }
        if exists k | k in d.table.keys :: Matches(k, pattern) && h in d.table.vals[k] {
          var k :| k in d.table.keys && Matches(k, pattern) && h in d.table.vals[k];
          var i :| 0 <= i < |d.table.keys| && d.table.keys[i] == k;
        }
      }
    }
    if AnyMatch(d.table.keys, pattern) then matched
    else if d.defaultHandler.Some? then [Fallback(d.defaultHandler.value)]
    else []
  }

  /**
   * `handlers_for_address(pattern)` as written: `MethodDispatcher._init__`
   * (line 90) is never called, so `_default_instance` does not exist and
   * reading it in the fallback raises `AttributeError`.
   */
  function HandlersForAddressAsWritten(d: Dispatcher, pattern: string): (r: Result<seq<MethodHandler>, PyError>)
    requires Valid(d)
    ensures AnyMatch(d.table.keys, pattern) ==> r == Success(HandlersForAddress(d, pattern))
    ensures !AnyMatch(d.table.keys, pattern) && d.defaultHandler.Some? ==> r == Failure(AttributeError)
    ensures !AnyMatch(d.table.keys, pattern) && d.defaultHandler.None? ==> r == Success([])
  {
    if AnyMatch(d.table.keys, pattern) then Success(Collect(d, d.table.keys, pattern))
    else if d.defaultHandler.Some? then Failure(AttributeError)
    else Success([])
  }

  /** With only a default handler set, any lookup raises as written, while the
      intended lookup yields the default handler. */
  lemma DefaultFallbackRaises(m: Method, pattern: string)
    ensures var d := SetDefaultHandler(New(), Some(m));
      && HandlersForAddressAsWritten(d, pattern) == Failure(AttributeError)
      && HandlersForAddress(d, pattern) == [Fallback(m)]
  {
    var d := SetDefaultHandler(New(), Some(m));
    assert !AnyMatch(d.table.keys, pattern);
  }
}

=== FILE: pattern.dfy ===
/**
 * The two address-matching tests of `MethodDispatcher.handlers_for_address`,
 * stated as recursive predicates in place of the regular expressions the
 * dispatcher compiles. They deviate from section "OSC Message Dispatching
 * and Pattern Matching" of the OSC 1.0 specification: `?` may also match
 * nothing, `*` only matches word characters, `|` and `+`, and `[]`/`{}` are
 * literal.
 */
module Pattern {

  /** `\w` */
  predicate IsWord(c: char) {
    'a' <= c <= 'z' || 'A' <= c <= 'Z' || '0' <= c <= '9' || c == '_'
  }

  /** `[\w|\+]` */
  predicate InStarClass(c: char) {
    IsWord(c) || c == '|' || c == '+'
  }

  /** The whole of `s` matches the inbound pattern `p`, compiled as
      `?` -> `\w?`, `*` -> `[\w|\+]*`, every other character literal. */
  predicate FullMatch(p: string, s: string)
    ensures FullMatch(p, s) && '*' !in p ==> |s| <= |p|
    decreases |p|, |s|
  {
    if p == [] then s == []
    else if p[0] == '?' then
      FullMatch(p[1..], s) || (s != [] && IsWord(s[0]) && FullMatch(p[1..], s[1..]))
    else if p[0] == '*' then
      FullMatch(p[1..], s) || (s != [] && InStarClass(s[0]) && FullMatch(p, s[1..]))
    else
      s != [] && s[0] == p[0] && FullMatch(p[1..], s[1..])
  }

  /** `re.compile(<pattern> + '$').match(addr)`: anchored at the start, and
      `$` also matches just before a final newline. */
  predicate InboundMatch(pattern: string, addr: string)
    ensures InboundMatch(pattern, addr) && '*' !in pattern ==> |addr| <= |pattern| + 1
  {
    || FullMatch(pattern, addr)
    || (|addr| > 0 && addr[|addr| - 1] == '\n' && FullMatch(pattern, addr[..|addr| - 1]))
  }

  // `re.match(addr.replace('*', '[^/]*?/*'), s)`: some prefix of `s` matches
  // the registered address `r`, each `*` standing for a run of non-`/`
  // characters followed by a run of `/`.
  predicate PrefixMatch(r: string, s: string)
    ensures PrefixMatch(r, s) && '*' !in r ==> |r| <= |s|
    decreases |r|, |s|, 2
  {
    if r == [] then true
    else if r[0] == '*' then RunMatch(r[1..], s)
    else s != [] && s[0] == r[0] && PrefixMatch(r[1..], s[1..])
  }

  // `[^/]*?` followed by the rest of the expansion.
  predicate RunMatch(rest: string, s: string)
    decreases |rest| + 1, |s|, 1
  {
    SlashMatch(rest, s) || (s != [] && s[0] != '/' && RunMatch(rest, s[1..]))
  }

  // `/*` followed by the rest of the expansion.
  predicate SlashMatch(rest: string, s: string)
    decreases |rest| + 1, |s|, 0
  {
    PrefixMatch(rest, s) || (s != [] && s[0] == '/' && SlashMatch(rest, s[1..]))
  }

  /** Lines 117-123: registered address `addr` matches the inbound `pattern`. */
  predicate Matches(addr: string, pattern: string)
    ensures Matches(addr, pattern) && '*' !in addr ==> InboundMatch(pattern, addr)
  {
    InboundMatch(pattern, addr) || ('*' in addr && PrefixMatch(addr, pattern))
  }

  /** No `?` and no `*`. */
  predicate NoWildcard(p: string) {
    '?' !in p && '*' !in p
  }

  lemma {:induction false} LiteralFullMatch(p: string, s: string)
    requires NoWildcard(p)
    ensures FullMatch(p, s) <==> s == p
    decreases |p|
  {
    if p != [] && s != [] {
      assert p[0] in p;
      LiteralFullMatch(p[1..], s[1..]);
      assert s == [s[0]] + s[1..] && p == [p[0]] + p[1..];
    }
  }

  /** An inbound pattern without `?` or `*` matches only the identical address
      (or that address with one trailing newline, through `$`). */
  lemma LiteralInbound(p: string, addr: string)
    requires NoWildcard(p)
    ensures InboundMatch(p, addr) <==> addr == p || addr == p + "\n"
  {
    LiteralFullMatch(p, addr);
    if |addr| > 0 {
      LiteralFullMatch(p, addr[..|addr| - 1]);
      if addr == p + "\n" {
        assert addr[..|addr| - 1] == p;
      }
      if addr[|addr| - 1] == '\n' && addr[..|addr| - 1] == p {
        assert addr == p + "\n";
      }
    }
  }

  /** An inbound `*` matches exactly the runs of word characters, `|` and `+`. */
  lemma {:induction false} StarMatchesRuns(s: string)
    ensures FullMatch("*", s) <==> forall i | 0 <= i < |s| :: InStarClass(s[i])
    decreases |s|
  {
    assert FullMatch("", s) <==> s == [];
    if s != [] {
      StarMatchesRuns(s[1..]);
      assert forall i | 1 <= i < |s| :: s[1..][i - 1] == s[i];
    }
  }

  /** An inbound `?` matches nothing or a single word character. */
  lemma QuestionMatchesAtMostOne(s: string)
    ensures FullMatch("?", s) <==> s == [] || (|s| == 1 && IsWord(s[0]))
  {
    assert FullMatch("", s) <==> s == [];
    if s != [] {
      assert FullMatch("", s[1..]) <==> s[1..] == [];
    }
  }

  /** A literal head of an inbound pattern consumes exactly itself. */
  lemma {:induction false} LiteralHead(a: string, p: string, s: string)
    requires NoWildcard(a)
    ensures FullMatch(a + p, s) <==> a <= s && FullMatch(p, s[|a|..])
    decreases |a|
  {
    if a == [] {
      assert a + p == p && s[|a|..] == s;
    } else {
      assert a[0] in a;
      assert (a + p)[0] == a[0] && (a + p)[1..] == a[1..] + p;
      if s != [] {
        LiteralHead(a[1..], p, s[1..]);
        assert a <= s <==> s[0] == a[0] && a[1..] <= s[1..];
        if a <= s {
          assert s[1..][|a| - 1..] == s[|a|..];
        }
      }
    }
  }

  /** The characters of `s` before index `k` are all in the `*` class. */
  predicate StarRun(s: string, k: int)
    requires 0 <= k <= |s|
  {
    forall i | 0 <= i < k :: InStarClass(s[i])
  }

  /** An inbound `*` followed by a literal tail matches a run of the `*`
      class and then exactly that tail. */
  lemma {:induction false} StarThenLiteral(b: string, t: string)
    requires NoWildcard(b)
    ensures FullMatch("*" + b, t) <==> |b| <= |t| && t[|t| - |b|..] == b && StarRun(t, |t| - |b|)
    decreases |t|
  {
    assert ("*" + b)[0] == '*' && ("*" + b)[1..] == b;
    LiteralFullMatch(b, t);
    if |t| > |b| {
      StarThenLiteral(b, t[1..]);
      assert t[1..][|t| - 1 - |b|..] == t[|t| - |b|..];
      assert StarRun(t, |t| - |b|) <==> InStarClass(t[0]) && StarRun(t[1..], |t| - 1 - |b|) by {
        assert forall i | 1 <= i < |t| :: t[1..][i - 1] == t[i];
      }
    } else if |t| == |b| && t != [] {
      StarThenLiteral(b, t[1..]);
      assert t[|t| - |b|..] == t;
    } else if |t| == |b| {
      assert t == [] && b == [] && t[|t| - |b|..] == b && StarRun(t, 0);
      assert FullMatch(("*" + b)[1..], t);
    } else if t != [] {
      StarThenLiteral(b, t[1..]);
    }
  }

  /** `s` is `a`, then a run of the `*` class, then `b`. */
  predicate StarBetween(a: string, b: string, s: string) {
    && |a| + |b| <= |s| && a <= s && s[|s| - |b|..] == b
    && forall i | |a| <= i < |s| - |b| :: InStarClass(s[i])
  }

  /** A `*` between two literal parts matches the first part, a run of the
      `*` class, and the second part. */
  lemma StarInside(a: string, b: string, s: string)
    requires NoWildcard(a) && NoWildcard(b)
    ensures FullMatch(a + "*" + b, s) <==> StarBetween(a, b, s)
  {
    assert a + "*" + b == a + ("*" + b);
    LiteralHead(a, "*" + b, s);
    if a <= s {
      StarThenLiteral(b, s[|a|..]);
      if |a| + |b| <= |s| {
        ShiftedRun(a, b, s);
      }
    }
  }

  // The tail of `s` after `a` seen from `s` itself.
  lemma ShiftedRun(a: string, b: string, s: string)
    requires a <= s && |a| + |b| <= |s|
    ensures var t := s[|a|..];
      && t[|t| - |b|..] == s[|s| - |b|..]
      && (StarRun(t, |t| - |b|) <==> forall i | |a| <= i < |s| - |b| :: InStarClass(s[i]))
  {
    var t := s[|a|..];
    assert forall i | |a| <= i < |s| :: t[i - |a|] == s[i];
    if forall i | |a| <= i < |s| - |b| :: InStarClass(s[i]) {
      forall j | 0 <= j < |t| - |b| ensures InStarClass(t[j]) {
        assert t[j] == s[j + |a|];
      }
    }
  }

  /** `s` is `a` and `b` joined, with nothing or one word character between. */
  predicate QuestionBetween(a: string, b: string, s: string) {
    || s == a + b
    || (|s| == |a| + |b| + 1 && a <= s && IsWord(s[|a|]) && s[|a| + 1..] == b)
  }

  /** A `?` between two literal parts matches both parts joined, with nothing
      or one word character between them. */
  lemma QuestionInside(a: string, b: string, s: string)
    requires NoWildcard(a) && NoWildcard(b)
    ensures FullMatch(a + "?" + b, s) <==> QuestionBetween(a, b, s)
  {
    assert a + "?" + b == a + ("?" + b);
    LiteralHead(a, "?" + b, s);
    assert ("?" + b)[0] == '?' && ("?" + b)[1..] == b;
    if a <= s {
      var t := s[|a|..];
      assert s == a + t;
      LiteralFullMatch(b, t);
      if t != [] {
        LiteralFullMatch(b, t[1..]);
        assert t[1..] == s[|a| + 1..];
      }
    } else {
      assert a <= a + b;
    }
  }

  // The inbound `/mix*/gain` matches `/mixA_1/gain` but not `/mix/a/gain`:
  // its `*` never crosses a `/`.
  lemma InboundStarExamples()
    ensures FullMatch("/mix*/gain", "/mixA_1/gain")
    ensures !FullMatch("/mix*/gain", "/mix/a/gain")
  {
    assert "/mix" + "*" + "/gain" == "/mix*/gain";
    StarInside("/mix", "/gain", "/mixA_1/gain");
    StarInside("/mix", "/gain", "/mix/a/gain");
    assert !StarBetween("/mix", "/gain", "/mix/a/gain") by {
      assert !InStarClass("/mix/a/gain"[4]);
    }
  }

  /** Without `*` the registered-address test is a prefix test. */
  lemma {:induction false} StarFreePrefix(r: string, s: string)
    requires '*' !in r
    ensures PrefixMatch(r, s) <==> r <= s
    decreases |r|
  {
    if r != [] && s != [] {
      assert r[0] in r;
      StarFreePrefix(r[1..], s[1..]);
      assert s == [s[0]] + s[1..] && r == [r[0]] + r[1..];
    }
  }

  /** No `/` in `u`. */
  predicate NoSlash(u: string) {
    forall i | 0 <= i < |u| :: u[i] != '/'
  }

  /** Nothing but `/` in `u`. */
  predicate AllSlash(u: string) {
    forall i | 0 <= i < |u| :: u[i] == '/'
  }

  /** `e` is an expansion of the registered address `r`: every `*` replaced by a
      run of non-`/` characters followed by a run of `/`, every other character kept. */
  ghost predicate Expands(r: string, e: string)
    decreases |r|
  {
    if r == [] then e == []
    else if r[0] == '*' then
      exists k, m | 0 <= k <= m <= |e| :: NoSlash(e[..k]) && AllSlash(e[k..m]) && Expands(r[1..], e[m..])
    else e != [] && e[0] == r[0] && Expands(r[1..], e[1..])
  }

  /** A run of `/` in front of a match of the rest is a `SlashMatch`. */
  lemma {:induction false} SlashThen(rest: string, v: string, t: string)
    requires AllSlash(v) && PrefixMatch(rest, t)
    ensures SlashMatch(rest, v + t)
    decreases |v|
  {
    if v == [] {
      assert v + t == t;
    } else {
      assert AllSlash(v[1..]) by {
        forall i | 0 <= i < |v[1..]| ensures v[1..][i] == '/' { assert v[1..][i] == v[i + 1]; }
      }
      SlashThen(rest, v[1..], t);
      assert (v + t)[0] == '/' && (v + t)[1..] == v[1..] + t;
    }
  }

  /** A run without `/` in front of a `SlashMatch` is a `RunMatch`. */
  lemma {:induction false} RunThen(rest: string, u: string, t: string)
    requires NoSlash(u) && SlashMatch(rest, t)
    ensures RunMatch(rest, u + t)
    decreases |u|
  {
    if u == [] {
      assert u + t == t;
    } else {
      assert NoSlash(u[1..]) by {
        forall i | 0 <= i < |u[1..]| ensures u[1..][i] != '/' { assert u[1..][i] == u[i + 1]; }
      }
      RunThen(rest, u[1..], t);
      assert (u + t)[0] == u[0] && (u + t)[1..] == u[1..] + t;
    }
  }

  /** Any text that starts with an expansion of `r` matches `r`. */
  lemma {:induction false} ExpansionMatches(r: string, e: string, s: string)
    requires Expands(r, e) && e <= s
    ensures PrefixMatch(r, s)
    decreases |r|
  {
    if r != [] {
      if r[0] == '*' {
        var k, m :| 0 <= k <= m <= |e| && NoSlash(e[..k]) && AllSlash(e[k..m]) && Expands(r[1..], e[m..]);
        assert e[m..] <= s[m..];
        ExpansionMatches(r[1..], e[m..], s[m..]);
        assert s[k..m] == e[k..m] && s[..k] == e[..k];
        RunSlashThen(r[1..], s, k, m);
      } else {
        assert e[1..] <= s[1..];
        ExpansionMatches(r[1..], e[1..], s[1..]);
      }
    }
  }

  // A run without `/`, a run of `/` and a match of the rest make a `RunMatch`.
  lemma RunSlashThen(rest: string, s: string, k: nat, m: nat)
    requires k <= m <= |s| && NoSlash(s[..k]) && AllSlash(s[k..m]) && PrefixMatch(rest, s[m..])
    ensures RunMatch(rest, s)
  {
    SlashThen(rest, s[k..m], s[m..]);
    RunThen(rest, s[..k], s[k..m] + s[m..]);
    assert s[..k] + (s[k..m] + s[m..]) == s;
  }

  /** A `SlashMatch` is a run of `/`, then a match of the rest. */
  lemma {:induction false} SlashSplit(rest: string, s: string) returns (m: nat)
    requires SlashMatch(rest, s)
    ensures m <= |s| && AllSlash(s[..m]) && PrefixMatch(rest, s[m..])
    decreases |s|
  {
    if PrefixMatch(rest, s) {
      m := 0;
    } else {
      var m' := SlashSplit(rest, s[1..]);
      m := m' + 1;
      assert s[m..] == s[1..][m'..];
      forall i | 0 <= i < m ensures s[..m][i] == '/' {
        if i > 0 { assert s[..m][i] == s[1..][..m'][i - 1]; }
      }
    }
  }

  /** A `RunMatch` is a run without `/`, a run of `/`, then a match of the rest. */
  lemma {:induction false} RunSplit(rest: string, s: string) returns (k: nat, m: nat)
    requires RunMatch(rest, s)
    ensures k <= m <= |s| && NoSlash(s[..k]) && AllSlash(s[k..m]) && PrefixMatch(rest, s[m..])
    decreases |s|
  {
    if SlashMatch(rest, s) {
      k := 0;
      m := SlashSplit(rest, s);
      assert s[k..m] == s[..m];
    } else {
      var k', m' := RunSplit(rest, s[1..]);
      k, m := k' + 1, m' + 1;
      assert s[m..] == s[1..][m'..];
      forall i | 0 <= i < m - k ensures s[k..m][i] == '/' {
        assert s[k..m][i] == s[1..][k'..m'][i];
      }
      forall i | 0 <= i < k ensures s[..k][i] != '/' {
        if i > 0 { assert s[..k][i] == s[1..][..k'][i - 1]; }
      }
    }
  }

  /** Text that matches `r` starts with an expansion of `r`. */
  lemma {:induction false} MatchExpansion(r: string, s: string) returns (e: string)
    requires PrefixMatch(r, s)
    ensures Expands(r, e) && e <= s
    decreases |r|
  {
    if r == [] {
      e := [];
    } else if r[0] == '*' {
      var k, m := RunSplit(r[1..], s);
      var e' := MatchExpansion(r[1..], s[m..]);
      e := s[..m] + e';
      assert e[..k] == s[..k] && e[k..m] == s[k..m] && e[m..] == e';
      assert s == s[..m] + s[m..];
    } else {
      var e' := MatchExpansion(r[1..], s[1..]);
      e := [r[0]] + e';
      assert e[1..] == e';
      assert s == [s[0]] + s[1..];
    }
  }

  /** The registered-address test matches exactly the texts that start with an
      expansion of the registered address; with a `*` in it, this is the test
      `Matches` adds to the inbound one. */
  lemma RegisteredStar(r: string, s: string)
    ensures PrefixMatch(r, s) <==> exists e :: Expands(r, e) && e <= s
    ensures '*' in r ==> (Matches(r, s) <==> InboundMatch(s, r) || exists e :: Expands(r, e) && e <= s)
  {
    if PrefixMatch(r, s) {
      var e := MatchExpansion(r, s);
      assert Expands(r, e) && e <= s;
    }
    if e :| Expands(r, e) && e <= s {
      ExpansionMatches(r, e, s);
      assert PrefixMatch(r, s);
    }
  }

  /** A literal character of a registered address consumes the same character. */
  lemma LiteralStep(c: char, r: string, s: string)
    requires c != '*'
    ensures PrefixMatch([c] + r, [c] + s) <==> PrefixMatch(r, s)
  {
    assert ([c] + r)[1..] == r && ([c] + s)[1..] == s;
  }

  /** A `*` of a registered address runs over a non-`/` character. */
  lemma RunStep(rest: string, c: char, s: string)
    requires c != '/' && RunMatch(rest, s)
    ensures RunMatch(rest, [c] + s)
  {
    assert ([c] + s)[1..] == s;
  }

  /** `/ch*` registered with the suffix `/vol` accepts `/ch` + `run` + `/vol`. */
  lemma StarChannel(run: string)
    requires forall i | 0 <= i < |run| :: run[i] != '/'
    ensures PrefixMatch("*/vol", run + "/vol")
    decreases |run|
  {
    assert "*/vol"[0] == '*' && "*/vol"[1..] == "/vol";
    if run == [] {
      StarFreePrefix("/vol", "/vol");
      assert run + "/vol" == "/vol";
      assert SlashMatch("/vol", "/vol");
    } else {
      assert forall i | 0 <= i < |run[1..]| :: run[1..][i] == run[i + 1];
      StarChannel(run[1..]);
      assert RunMatch("/vol", run[1..] + "/vol");
      assert run[0] != '/';
      RunStep("/vol", run[0], run[1..] + "/vol");
      assert [run[0]] + (run[1..] + "/vol") == run + "/vol";
      assert RunMatch("/vol", run + "/vol");
    }
  }

  /** A star-free head of a registered address consumes the same text. */
  lemma {:induction false} LiteralPrefix(p: string, r: string, s: string)
    requires '*' !in p
    ensures PrefixMatch(p + r, p + s) <==> PrefixMatch(r, s)
    decreases |p|
  {
    if p != [] {
      assert p[0] in p;
      LiteralPrefix(p[1..], r, s);
      LiteralStep(p[0], p[1..] + r, p[1..] + s);
      assert p + r == [p[0]] + (p[1..] + r) && p + s == [p[0]] + (p[1..] + s);
    } else {
      assert p + r == r && p + s == s;
    }
  }

  /** The registered `/ch*` + `/vol` matches `/ch`, any run without `/`, then `/vol`. */
  lemma ChannelStar(run: string)
    requires forall i | 0 <= i < |run| :: run[i] != '/'
    ensures Matches("/ch*/vol", "/ch" + run + "/vol")
  {
    StarChannel(run);
    LiteralPrefix("/ch", "*/vol", run + "/vol");
    assert "/ch" + "*/vol" == "/ch*/vol";
    assert "/ch" + (run + "/vol") == "/ch" + run + "/vol";
    assert "/ch*/vol"[3] == '*';
  }

  // Hence `/ch*/vol` matches `/ch12/vol` and `/ch/vol`.
  lemma ChannelStarExamples()
    ensures Matches("/ch*/vol", "/ch12/vol")
    ensures Matches("/ch*/vol", "/ch/vol")
  {
    ChannelStar("12");
    assert "/ch" + "12" + "/vol" == "/ch12/vol";
    ChannelStar("");
    assert "/ch" + "" + "/vol" == "/ch/vol";
  }

  // Without wildcards on either side, `/ch1/vol` does not match `/ch2/vol`.
  lemma ChannelLiteralExample()
    ensures !Matches("/ch1/vol", "/ch2/vol")
  {
    LiteralInbound("/ch2/vol", "/ch1/vol");
    assert "/ch1/vol"[3] != "/ch2/vol"[3];
    assert '*' !in "/ch1/vol";
  }
}

=== FILE: pydict.dfy ===
/**
 * Python's built-in `dict`: a finite map that remembers insertion order.
 * Order matters in the modelled system: it fixes which handler a later
 * assignment overwrites and in which order matched handlers are called.
 */
module PyDict {

  /** `keys` lists the keys in insertion order, `vals` holds the bindings. */
  datatype Dict<K(==,!new), V> = Dict(keys: seq<K>, vals: map<K, V>) {

    /** Keys are listed once each, and exactly the bound keys are listed. */
    ghost predicate Valid() {
      && Distinct(keys)
      && (forall k :: k in vals <==> k in keys)
    }
  }

  /** `{}` */
  function Empty<K(==,!new), V>(): (d: Dict<K, V>)
    ensures d.Valid() && d.keys == [] && d.vals == map[]
  {
    Dict([], map[])
  }

  /** `d[k] = v` (also `d.update({k: v})`): a new key goes last, an existing key keeps its place. */
  function Put<K(==,!new), V>(d: Dict<K, V>, k: K, v: V): (r: Dict<K, V>)
    requires d.Valid()
    ensures r.Valid()
    ensures r.vals == d.vals[k := v]
    ensures k in d.vals ==> r.keys == d.keys
    ensures k !in d.vals ==> r.keys == d.keys + [k]
  {
    Dict(if k in d.vals then d.keys else d.keys + [k], d.vals[k := v])
  }

  /** The list `s` without the element `k`. */
  function Without<K(==,!new)>(s: seq<K>, k: K): (r: seq<K>)
    ensures forall x :: x in r <==> x in s && x != k
    ensures |r| <= |s|
  {
    if s == [] then []
    else if s[0] == k then Without(s[1..], k)
    else [s[0]] + Without(s[1..], k)
  }

  /** No key is listed twice. */
  ghost predicate Distinct<K>(s: seq<K>) {
    forall i, j | 0 <= i < j < |s| :: s[i] != s[j]
  }

  lemma WithoutDistinct<K(!new)>(s: seq<K>, k: K)
    requires Distinct(s)
    ensures Distinct(Without(s, k))
  {
    if s != [] {
      WithoutDistinct(s[1..], k);
      var t := Without(s[1..], k);
      assert Distinct(s[1..]) by {
        forall i, j | 0 <= i < j < |s[1..]| ensures s[1..][i] != s[1..][j] {
          assert s[1..][i] == s[i + 1] && s[1..][j] == s[j + 1];
        }
      }
      if s[0] != k {
        assert s[0] !in s[1..] by {
          forall j | 0 <= j < |s[1..]| ensures s[1..][j] != s[0] {
            assert s[1..][j] == s[j + 1];
          }
        }
        var r := [s[0]] + t;
        forall i, j | 0 <= i < j < |r| ensures r[i] != r[j] {
          assert r[j] == t[j - 1];
          if i > 0 {
            assert r[i] == t[i - 1];
          } else {
            assert t[j - 1] in t;
          }
        }
      }
    }
  }

  /** `d.pop(k)` for a present key: the binding is removed, the other keys keep their order. */
  function Pop<K(==,!new), V>(d: Dict<K, V>, k: K): (r: Dict<K, V>)
    requires d.Valid() && k in d.vals
    ensures r.Valid()
    ensures r.vals == d.vals - {k}
  {
    WithoutDistinct(d.keys, k);
    Dict(Without(d.keys, k), d.vals - {k})
  }
}

=== FILE: pyvalue.dfy ===
/** The Python values the modelled code handles: keyword arguments, OSC
    message arguments, and what `json.loads` returns. */
module PyValue {
  import opened Wrappers
  import opened Utf8
  import PyDict

  datatype Value =
    | Null                                      // None (JSON null)
    | Bool(b: bool)
    | Int(i: int)
    | Str(s: string)
    | Bytes(bs: seq<byte>)
    | List(items: seq<Value>)                   // list or tuple (JSON array)
    | Obj(fields: PyDict.Dict<string, Value>)   // dict with string keys (JSON object)

  /** The exceptions the modelled code can raise. */
  datatype PyError = IndexError | TypeError | AttributeError | UnicodeDecodeError | RuntimeError

  /** Python truthiness (`if v:`). */
  predicate Truthy(v: Value) {
    match v
    case Null => false
    case Bool(b) => b
    case Int(i) => i != 0
    case Str(s) => s != []
    case Bytes(bs) => bs != []
    case List(items) => items != []
    case Obj(fields) => fields.keys != []
  }

  /** What iterating over `v` yields; `None` when `v` is not `Iterable`.
      A str yields its one-character strings, bytes their ints, a dict its keys. */
  function Iterate(v: Value): (r: Option<seq<Value>>)
    ensures r.Some? <==> (v.Str? || v.Bytes? || v.List? || v.Obj?)
    ensures v.List? ==> r == Some(v.items)
  {
    match v
    case Str(s) => Some(seq(|s|, i requires 0 <= i < |s| => Str([s[i]])))
    case Bytes(bs) => Some(seq(|bs|, i requires 0 <= i < |bs| => Int(bs[i])))
    case List(items) => Some(items)
    case Obj(fields) => Some(seq(|fields.keys|, i requires 0 <= i < |fields.keys| => Str(fields.keys[i])))
    case _ => None
  }

  /** `tuple(v)`: the iteration as a sequence, or `TypeError` for a value that is not iterable. */
  function Tuple(v: Value): (r: Result<seq<Value>, PyError>)
    ensures r.Failure? <==> Iterate(v).None?
    ensures r.Success? ==> r.value == Iterate(v).value
  {
    match Iterate(v)
    case Some(items) => Success(items)
    case None => Failure(TypeError)
  }
}

=== FILE: register.dfy ===
/**
 * Handler registration and address-namespace composition:
 * the `handleOSC` decorator, the `dispatchOSC` class decorator, and the
 * `DynamicRegistrar` instance tables that nest addresses along the
 * attribute-assignment chain.
 *
 * Python reflection is replaced by explicit inputs: `dir(cls)` is the list of
 * attributes handed to `DispatchOSC`, `__qualname__` is a field of
 * `Function`, and `hasattr(value, ...)` is the shape of `Assigned`.
 */
module Register {
  import opened Wrappers
  import opened PyValue
  import opened PyDict

  /** Identity of a Python object. */
  type Inst = nat

  /** A plain Python function, before decoration. */
  datatype Function = Function(name: string, qualname: string)

  /** A function after `handleOSC`: the attributes the decorator attaches. */
  datatype Method = Method(
    name: string,
    qualname: string,
    address: string,              // _address
    passAddress: Value,           // _pass_address
    priority: Option<Value>,      // _priority (absent unless given)
    kwargs: Dict<string, Value>,  // _kwargs
    owningClass: string)          // _owning_class

  /** A table entry: a bare method (class level) or a `(method, instance)` tuple (instance level). */
  datatype Entry = Bare(m: Method) | Bound(m: Method, inst: Inst)

  /** address -> entry */
  type Bucket = Dict<string, Entry>

  /** class name -> bucket: `_class_handlers` and `_instance_handlers`. */
  type Table = Dict<string, Bucket>

  ghost predicate TableValid(t: Table) {
    t.Valid() && forall impl | impl in t.vals :: t.vals[impl].Valid()
  }

  predicate InTable(t: Table, impl: string, addr: string) {
    impl in t.vals && addr in t.vals[impl].vals
  }

  function At(t: Table, impl: string, addr: string): Entry
    requires InTable(t, impl, addr)
  {
    t.vals[impl].vals[addr]
  }

  // ---------------------------------------------------------------------
  // handleOSC
  // ---------------------------------------------------------------------

  /** `qualname.split('.')[0]`: the longest dot-free prefix. */
  function OwningClass(qualname: string): (c: string)
    ensures c <= qualname
    ensures '.' !in c
    ensures c == qualname || qualname[|c|] == '.'
  {
    if qualname == [] || qualname[0] == '.' then []
    else [qualname[0]] + OwningClass(qualname[1..])
  }

  /** `del kwargs[k]` when `k` is present. */
  function Delete(d: Dict<string, Value>, k: string): (r: Dict<string, Value>)
    requires d.Valid()
    ensures r.Valid() && r.vals.Keys == d.vals.Keys - {k}
    ensures forall x | x in r.vals :: r.vals[x] == d.vals[x]
  {
    if k in d.vals then Pop(d, k) else d
  }

  /** Lines 43, 49 and 55: `kwargs` without the decorator's own keywords. */
  function StripReserved(kwargs: Dict<string, Value>): (r: Dict<string, Value>)
    requires kwargs.Valid()
    ensures r.Valid() && r.vals.Keys == kwargs.vals.Keys - Reserved
    ensures forall x | x in r.vals :: r.vals[x] == kwargs.vals[x]
  {
    Delete(Delete(Delete(kwargs, "alias"), "pass_address"), "priority")
  }

  /** The decorator's own keywords; every other keyword is kept in `_kwargs`. */
  const Reserved: set<string> := {"alias", "pass_address", "priority"}

  /**
   * `handleOSC(**kwargs)(f)`. `kwargs` is the dict the decorator closes over;
   * the decorator deletes its own keywords from that very dict and stores it
   * as `_kwargs`, so `m.kwargs` is also what a second use of the same
   * decorator object sees.
   */
  function HandleOSC(kwargs: Dict<string, Value>, f: Function): (m: Method)
    requires kwargs.Valid()
    requires "alias" in kwargs.vals ==> kwargs.vals["alias"].Str?
    ensures m.name == f.name && m.qualname == f.qualname
    ensures "alias" in kwargs.vals ==> m.address == kwargs.vals["alias"].s
    ensures "alias" !in kwargs.vals ==> m.address == "/" + f.name
    ensures "pass_address" in kwargs.vals ==> m.passAddress == kwargs.vals["pass_address"]
    ensures "pass_address" !in kwargs.vals ==> !Truthy(m.passAddress)
    ensures "priority" in kwargs.vals ==> m.priority == Some(kwargs.vals["priority"])
    ensures "priority" !in kwargs.vals ==> m.priority.None?
    ensures m.kwargs.Valid()
    ensures m.kwargs.vals.Keys == kwargs.vals.Keys - Reserved
    ensures forall k | k in m.kwargs.vals :: m.kwargs.vals[k] == kwargs.vals[k]
    ensures m.owningClass <= f.qualname && '.' !in m.owningClass
  {
    var address := if "alias" in kwargs.vals then kwargs.vals["alias"].s else "/" + f.name;
    var pass := if "pass_address" in kwargs.vals then kwargs.vals["pass_address"] else Bool(false);
    var priority := if "priority" in kwargs.vals then Some(kwargs.vals["priority"]) else None;
    var rest := StripReserved(kwargs);
    Method(f.name, f.qualname, address, pass, priority, rest, OwningClass(f.qualname))
  }

  /** Reusing one `handleOSC(alias=...)` object on a second function: the alias
      was deleted by the first use, so the second function gets its own name. */
  lemma DecoratorReuseDropsAlias(kwargs: Dict<string, Value>, f: Function, g: Function)
    requires kwargs.Valid()
    requires "alias" in kwargs.vals && kwargs.vals["alias"].Str?
    ensures HandleOSC(HandleOSC(kwargs, f).kwargs, g).address == "/" + g.name
    ensures HandleOSC(kwargs, f).address == kwargs.vals["alias"].s
  {
  }

  // ---------------------------------------------------------------------
  // dispatchOSC
  // ---------------------------------------------------------------------

  /** Lines 20-21: prefix `/` unless the address already starts with one. */
  function Normalize(address: string): (a: string)
    requires address != []
    ensures a != [] && a[0] == '/'
    ensures a == address || a == "/" + address
  {
    if address[0] != '/' then "/" + address else address
  }

  /** The normalised address starts with `/`, differs from the input by at
      most that prefix, and normalising again changes nothing. */
  lemma NormalizeIdempotent(address: string)
    requires address != []
    ensures Normalize(address) != [] && Normalize(address)[0] == '/'
    ensures Normalize(address) == address || Normalize(address) == "/" + address
    ensures address[0] == '/' <==> Normalize(address) == address
    ensures Normalize(Normalize(address)) == Normalize(address)
  {
  }

  /** The method as `dispatchOSC` leaves it: `_address` normalised in place. */
  function Filed(m: Method): Method
    requires m.address != []
  {
    m.(address := Normalize(m.address))
  }

  /** One entry of `dir(cls)`: `handler` is present iff the attribute has `_registered`. */
  datatype Attr = Attr(name: string, handler: Option<Method>)

  /** What the class table holds: bare methods, each under its owning class and its own address. */
  ghost predicate WellFiled(t: Table) {
    forall impl, addr | InTable(t, impl, addr) ::
      && addr != [] && addr[0] == '/'
      && At(t, impl, addr).Bare?
      && At(t, impl, addr).m.address == addr
      && At(t, impl, addr).m.owningClass == impl
  }

  /** `t[impl] = {}` when `t` has no bucket `impl`. */
  function EnsureBucket(t: Table, impl: string): (r: Table)
    requires TableValid(t)
    ensures TableValid(r) && t.keys <= r.keys && impl in r.vals
    ensures r.vals.Keys == t.vals.Keys + {impl}
    ensures forall i | i in t.vals :: r.vals[i] == t.vals[i]
    ensures forall i, a :: InTable(r, i, a) <==> InTable(t, i, a)
  {
    if impl in t.vals then t else Put(t, impl, Empty())
  }

  /** `t[impl][addr] = e` for an existing bucket `impl`. */
  function PutIn(t: Table, impl: string, addr: string, e: Entry): (r: Table)
    requires TableValid(t) && impl in t.vals
    ensures TableValid(r) && r.keys == t.keys
    ensures r.vals.Keys == t.vals.Keys
    ensures forall i | i in t.vals && i != impl :: r.vals[i] == t.vals[i]
    ensures r.vals[impl].vals == t.vals[impl].vals[addr := e]
  {
    Put(t, impl, Put(t.vals[impl], addr, e))
  }

  /** `t[impl][addr] = e`, creating `t[impl] = {}` first when it is missing. */
  function PutAt(t: Table, impl: string, addr: string, e: Entry): (r: Table)
    requires TableValid(t)
    ensures TableValid(r)
    ensures t.keys <= r.keys
    ensures r.vals.Keys == t.vals.Keys + {impl}
    ensures InTable(r, impl, addr) && At(r, impl, addr) == e
    ensures forall i, a :: InTable(r, i, a) <==> InTable(t, i, a) || (i == impl && a == addr)
    ensures forall i, a | InTable(t, i, a) && (i != impl || a != addr) :: At(r, i, a) == At(t, i, a)
    ensures forall i | i in t.vals && i != impl :: r.vals[i] == t.vals[i]
  {
    var t1 := EnsureBucket(t, impl);
    var r := PutIn(t1, impl, addr, e);
    assert forall i, a :: InTable(r, i, a) <==> InTable(t1, i, a) || (i == impl && a == addr);
    r
  }

  /** Lines 16-25 for one registered method: make sure its owning class has a
      bucket, then file it under its normalised address (`IndexError` on an
      empty address). */
  function File(t: Table, m: Method): (r: Result<Table, PyError>)
    requires TableValid(t) && WellFiled(t)
    ensures r.Failure? <==> m.address == []
    ensures r.Failure? ==> r.error == IndexError
    ensures r.Success? ==> TableValid(r.value) && WellFiled(r.value) && t.vals.Keys <= r.value.vals.Keys
  {
    if m.address == [] then Failure(IndexError)
    else
      PutAtWellFiled(t, m);
      Success(PutAt(t, m.owningClass, Normalize(m.address), Bare(Filed(m))))
  }

  lemma PutAtWellFiled(t: Table, m: Method)
    requires TableValid(t) && WellFiled(t) && m.address != []
    ensures WellFiled(PutAt(t, m.owningClass, Normalize(m.address), Bare(Filed(m))))
  {
    var a := Normalize(m.address);
    var r := PutAt(t, m.owningClass, a, Bare(Filed(m)));
    NormalizeIdempotent(m.address);
    forall impl, addr | InTable(r, impl, addr)
      ensures addr != [] && addr[0] == '/' && At(r, impl, addr).Bare?
      ensures At(r, impl, addr).m.address == addr && At(r, impl, addr).m.owningClass == impl
    {
      if impl != m.owningClass || addr != a {
        assert InTable(t, impl, addr) && At(r, impl, addr) == At(t, impl, addr);
      }
    }
  }

  /** The loop of lines 10-25 over the remaining attributes. */
  function Scan(t: Table, attrs: seq<Attr>): (r: Result<Table, PyError>)
    requires TableValid(t) && WellFiled(t)
    ensures r.Success? ==> TableValid(r.value) && WellFiled(r.value) && t.vals.Keys <= r.value.vals.Keys
    decreases |attrs|
  {
    if attrs == [] then Success(t)
    else match attrs[0].handler
      case None => Scan(t, attrs[1..])
      case Some(m) =>
        match File(t, m)
        case Failure(e) => Failure(e)
        case Success(t1) => Scan(t1, attrs[1..])
  }

  /** `dispatchOSC(cls)`: the class table, given `cls.__name__` and `dir(cls)`. */
  function DispatchOSC(cls: string, attrs: seq<Attr>): (r: Result<Table, PyError>)
    ensures r.Success? ==> TableValid(r.value) && WellFiled(r.value)
    ensures r.Success? ==> cls in r.value.vals
  {
    Scan(Put(Empty(), cls, Empty()), attrs)
  }

  /** A registered method whose address is empty. */
  predicate EmptyAddress(a: Attr) {
    a.handler.Some? && a.handler.value.address == []
  }

  /** A registered method owned by class `impl`. */
  predicate OwnedBy(a: Attr, impl: string) {
    a.handler.Some? && a.handler.value.owningClass == impl
  }

  /** A registered method that `dispatchOSC` files at `impl`/`addr`. */
  predicate FiledAt(a: Attr, impl: string, addr: string) {
    && a.handler.Some?
    && a.handler.value.address != []
    && a.handler.value.owningClass == impl
    && Normalize(a.handler.value.address) == addr
  }

  /** `attrs[i]` is registered and no later attribute is filed at the same place. */
  predicate LastFiled(attrs: seq<Attr>, i: int)
    requires 0 <= i < |attrs|
  {
    && attrs[i].handler.Some?
    && attrs[i].handler.value.address != []
    && forall j | i < j < |attrs| ::
         !FiledAt(attrs[j], attrs[i].handler.value.owningClass, Normalize(attrs[i].handler.value.address))
  }

  lemma {:induction false} ScanFails(t: Table, attrs: seq<Attr>)
    requires TableValid(t) && WellFiled(t)
    ensures Scan(t, attrs).Failure? <==> exists i | 0 <= i < |attrs| :: EmptyAddress(attrs[i])
    ensures Scan(t, attrs).Failure? ==> Scan(t, attrs).error == IndexError
    decreases |attrs|
  {
    if attrs != [] {
      assert forall i | 1 <= i < |attrs| :: attrs[1..][i - 1] == attrs[i];
      match attrs[0].handler
      case None =>
        ScanFails(t, attrs[1..]);
      case Some(m) =>
        if m.address != [] {
          ScanFails(File(t, m).value, attrs[1..]);
        }
    }
  }

  /** `dispatchOSC` raises `IndexError` exactly when some registered method has an empty address. */
  lemma DispatchOSCFails(cls: string, attrs: seq<Attr>)
    ensures DispatchOSC(cls, attrs).Failure? <==> exists i | 0 <= i < |attrs| :: EmptyAddress(attrs[i])
    ensures DispatchOSC(cls, attrs).Failure? ==> DispatchOSC(cls, attrs).error == IndexError
  {
    ScanFails(Put(Empty(), cls, Empty()), attrs);
  }

  lemma {:induction false} ScanBuckets(t: Table, attrs: seq<Attr>)
    requires TableValid(t) && WellFiled(t)
    requires Scan(t, attrs).Success?
    ensures forall impl :: impl in Scan(t, attrs).value.vals <==>
      impl in t.vals || exists i | 0 <= i < |attrs| :: OwnedBy(attrs[i], impl)
    decreases |attrs|
  {
    if attrs != [] {
      assert forall i | 1 <= i < |attrs| :: attrs[1..][i - 1] == attrs[i];
      match attrs[0].handler
      case None =>
        ScanBuckets(t, attrs[1..]);
      case Some(m) =>
        ScanBuckets(File(t, m).value, attrs[1..]);
    }
  }

  /** The class table has a bucket for the decorated class (possibly empty)
      and one for the owning class of every registered method, and no other. */
  lemma DispatchOSCBuckets(cls: string, attrs: seq<Attr>)
    requires DispatchOSC(cls, attrs).Success?
    ensures forall impl :: impl in DispatchOSC(cls, attrs).value.vals <==>
      impl == cls || exists i | 0 <= i < |attrs| :: OwnedBy(attrs[i], impl)
  {
    ScanBuckets(Put(Empty(), cls, Empty()), attrs);
  }

  lemma {:induction false} ScanKeeps(t: Table, attrs: seq<Attr>, impl: string, addr: string)
    requires TableValid(t) && WellFiled(t)
    requires Scan(t, attrs).Success?
    requires InTable(t, impl, addr)
    requires forall i | 0 <= i < |attrs| :: !FiledAt(attrs[i], impl, addr)
    ensures InTable(Scan(t, attrs).value, impl, addr)
    ensures At(Scan(t, attrs).value, impl, addr) == At(t, impl, addr)
    decreases |attrs|
  {
    if attrs != [] {
      var tail := attrs[1..];
      assert forall i | 1 <= i < |attrs| :: tail[i - 1] == attrs[i];
      match attrs[0].handler
      case None =>
        ScanKeeps(t, tail, impl, addr);
      case Some(m0) =>
        assert !FiledAt(attrs[0], impl, addr);
        ScanKeeps(File(t, m0).value, tail, impl, addr);
    }
  }

  lemma {:induction false} ScanOrigin(t: Table, attrs: seq<Attr>, impl: string, addr: string)
    requires TableValid(t) && WellFiled(t)
    requires Scan(t, attrs).Success?
    requires InTable(Scan(t, attrs).value, impl, addr)
    ensures InTable(t, impl, addr) || exists i | 0 <= i < |attrs| :: FiledAt(attrs[i], impl, addr)
    decreases |attrs|
  {
    if attrs != [] {
      var tail := attrs[1..];
      assert forall i | 1 <= i < |attrs| :: tail[i - 1] == attrs[i];
      match attrs[0].handler
      case None =>
        ScanOrigin(t, tail, impl, addr);
      case Some(m0) =>
        ScanOrigin(File(t, m0).value, tail, impl, addr);
    }
  }

  lemma LastFiledTail(attrs: seq<Attr>, i: int)
    requires 0 < i < |attrs| && LastFiled(attrs, i)
    ensures LastFiled(attrs[1..], i - 1)
  {
    var tail := attrs[1..];
    assert forall k | 1 <= k < |attrs| :: tail[k - 1] == attrs[k];
  }

  lemma {:induction false} ScanLast(t: Table, attrs: seq<Attr>, i: int)
    requires TableValid(t) && WellFiled(t)
    requires Scan(t, attrs).Success?
    requires 0 <= i < |attrs| && LastFiled(attrs, i)
    ensures var m := attrs[i].handler.value;
      InTable(Scan(t, attrs).value, m.owningClass, Normalize(m.address))
      && At(Scan(t, attrs).value, m.owningClass, Normalize(m.address)) == Bare(Filed(m))
    decreases |attrs|
  {
    if i == 0 {
      ScanLastHead(t, attrs);
    } else {
      LastFiledTail(attrs, i);
      assert attrs[1..][i - 1] == attrs[i];
      match attrs[0].handler
      case None =>
        ScanLast(t, attrs[1..], i - 1);
      case Some(m0) =>
        ScanLast(File(t, m0).value, attrs[1..], i - 1);
    }
  }

  lemma ScanLastHead(t: Table, attrs: seq<Attr>)
    requires TableValid(t) && WellFiled(t)
    requires Scan(t, attrs).Success?
    requires |attrs| > 0 && LastFiled(attrs, 0)
    ensures var m := attrs[0].handler.value;
      InTable(Scan(t, attrs).value, m.owningClass, Normalize(m.address))
      && At(Scan(t, attrs).value, m.owningClass, Normalize(m.address)) == Bare(Filed(m))
  {
    var m := attrs[0].handler.value;
    var tail := attrs[1..];
    assert forall k | 1 <= k < |attrs| :: tail[k - 1] == attrs[k];
    var t1 := File(t, m).value;
    assert Scan(t, attrs) == Scan(t1, tail);
    ScanKeeps(t1, tail, m.owningClass, Normalize(m.address));
  }

  /** Within the class table, a later handler in `dir()` order filed at the same
      class and address overwrites an earlier one; every entry comes from a
      registered attribute. */
  lemma DispatchOSCLastWins(cls: string, attrs: seq<Attr>)
    requires DispatchOSC(cls, attrs).Success?
    ensures var r := DispatchOSC(cls, attrs).value;
      forall i | 0 <= i < |attrs| && LastFiled(attrs, i) ::
        var m := attrs[i].handler.value;
        InTable(r, m.owningClass, Normalize(m.address)) && At(r, m.owningClass, Normalize(m.address)) == Bare(Filed(m))
    ensures var r := DispatchOSC(cls, attrs).value;
      forall impl, addr | InTable(r, impl, addr) :: exists i | 0 <= i < |attrs| :: FiledAt(attrs[i], impl, addr)
  {
    var t0: Table := Put(Empty(), cls, Empty());
    var r := DispatchOSC(cls, attrs).value;
    forall i | 0 <= i < |attrs| && LastFiled(attrs, i)
      ensures var m := attrs[i].handler.value;
        InTable(r, m.owningClass, Normalize(m.address)) && At(r, m.owningClass, Normalize(m.address)) == Bare(Filed(m))
    {
      ScanLast(t0, attrs, i);
    }
    forall impl, addr | InTable(r, impl, addr)
      ensures exists i | 0 <= i < |attrs| :: FiledAt(attrs[i], impl, addr)
    {
      ScanOrigin(t0, attrs, impl, addr);
      assert !InTable(t0, impl, addr);
    }
  }
}

=== FILE: registrar.dfy ===
/**
 * `DynamicRegistrar`: the per-instance table `_instance_handlers`, seeded
 * from the class table in `__init__` and extended by `__setattr__`, which
 * imports a routing-capable child's addresses under `"/" + key`.
 */
module Registrar {
  import opened Wrappers
  import opened PyValue
  import opened PyDict
  import opened Register

  /** The value of an attribute assignment, as `hasattr` classifies it. */
  datatype Assigned =
    | Instance(id: Inst, handlers: Table)    // has `_instance_handlers`
    | Class(id: Inst, classHandlers: Table)  // has `_class_handlers` only
    | Plain(v: Value)                        // neither

  /** A `DynamicRegistrar` object: identity, `__class__.__name__`,
      `_instance_handlers`, and its other attributes. */
  datatype Registrar = Registrar(self: Inst, cls: string, handlers: Table, attrs: map<string, Assigned>)

  /** Every registrar has its own-class bucket, first in bucket order: `__init__`
      creates it first and nothing removes a bucket. */
  ghost predicate Valid(r: Registrar) {
    TableValid(r.handlers) && |r.handlers.keys| > 0 && r.handlers.keys[0] == r.cls
  }

  /** Every instance-level entry is a `(method, instance)` tuple. */
  ghost predicate AllBound(t: Table) {
    forall impl, addr | InTable(t, impl, addr) :: At(t, impl, addr).Bound?
  }

  // ---------------------------------------------------------------------
  // __init__
  // ---------------------------------------------------------------------

  /** A class-level entry that `__init__` binds to the new instance. */
  predicate Seeds(ct: Table, impl: string, addr: string) {
    InTable(ct, impl, addr) && At(ct, impl, addr).Bare?
  }

  /** Lines 84-90 for one class bucket `b` named `impl`, over the addresses `addrs`. */
  function SeedBucket(h: Table, self: Inst, impl: string, b: Bucket, addrs: seq<string>): (r: Table)
    requires TableValid(h)
    requires forall a | a in addrs :: a in b.vals
    ensures TableValid(r) && h.keys <= r.keys
    ensures forall i, a :: InTable(r, i, a) <==> InTable(h, i, a) || (i == impl && a in addrs && b.vals[a].Bare?)
    ensures forall i, a | InTable(r, i, a) ::
      At(r, i, a) == if i == impl && a in addrs && b.vals[a].Bare? then Bound(b.vals[a].m, self) else At(h, i, a)
    ensures forall i :: i in r.vals <==> i in h.vals || (i == impl && exists a | a in addrs :: b.vals[a].Bare?)
    decreases |addrs|
  {
    if addrs == [] then h
    else
      var a := addrs[0];
      var h1 := if b.vals[a].Bare? then PutAt(h, impl, a, Bound(b.vals[a].m, self)) else h;
      assert forall x | x in addrs[1..] :: x in addrs;
      assert forall x | x in addrs :: x == a || x in addrs[1..];
      SeedBucket(h1, self, impl, b, addrs[1..])
  }

  /** Lines 83-90 over the class buckets `impls`. */
  function Seed(h: Table, self: Inst, ct: Table, impls: seq<string>): (r: Table)
    requires TableValid(h) && TableValid(ct)
    requires forall i | i in impls :: i in ct.vals
    ensures TableValid(r) && h.keys <= r.keys
    ensures forall i, a :: InTable(r, i, a) <==> InTable(h, i, a) || (i in impls && Seeds(ct, i, a))
    ensures forall i, a | InTable(r, i, a) ::
      At(r, i, a) == if i in impls && Seeds(ct, i, a) then Bound(At(ct, i, a).m, self) else At(h, i, a)
    ensures forall i :: i in r.vals <==> i in h.vals || (i in impls && exists a :: Seeds(ct, i, a))
    decreases |impls|
  {
    if impls == [] then h
    else
      var impl := impls[0];
      var b := ct.vals[impl];
      var h1 := SeedBucket(h, self, impl, b, b.keys);
      assert forall x | x in impls[1..] :: x in impls;
      assert forall x | x in impls :: x == impl || x in impls[1..];
      assert forall a :: Seeds(ct, impl, a) <==> a in b.keys && b.vals[a].Bare?;
      Seed(h1, self, ct, impls[1..])
  }

  /** The table lines 80-90 build, starting from `{cls: {}}`. */
  lemma SeedFromEmpty(self: Inst, cls: string, ct: Table)
    requires TableValid(ct)
    ensures forall i | i in ct.keys :: i in ct.vals
    ensures var h := Seed(Put(Empty(), cls, Empty()), self, ct, ct.keys);
      && |h.keys| > 0 && h.keys[0] == cls
      && (forall impl, addr :: InTable(h, impl, addr) <==> Seeds(ct, impl, addr))
      && (forall impl, addr | Seeds(ct, impl, addr) :: InTable(h, impl, addr) && At(h, impl, addr) == Bound(At(ct, impl, addr).m, self))
      && (forall impl :: impl in h.vals <==> impl == cls || exists addr :: Seeds(ct, impl, addr))
  {
    var h0: Table := Put(Empty(), cls, Empty());
    assert forall impl, addr :: !InTable(h0, impl, addr);
    assert forall i | i in ct.keys :: i in ct.vals;
    assert h0.keys == [cls] && h0.vals.Keys == {cls};
    var h := Seed(h0, self, ct, ct.keys);
    assert h0.keys <= h.keys;
    assert forall impl, addr | Seeds(ct, impl, addr) :: impl in ct.keys;
    assert forall impl, addr :: InTable(h, impl, addr) <==> Seeds(ct, impl, addr);
    assert forall impl :: impl in h.vals <==> impl == cls || (impl in ct.keys && exists addr :: Seeds(ct, impl, addr));
  }

  /**
   * `DynamicRegistrar.__init__` for an object `self` of class `cls` whose class
   * table is `ct`: the own-class bucket comes first; every bare class entry
   * becomes `(method, self)` in the bucket of the same name; tuple entries
   * are skipped; a class bucket with no bare entry gets no instance bucket.
   */
  function Init(self: Inst, cls: string, ct: Table): (r: Registrar)
    requires TableValid(ct)
    ensures Valid(r) && AllBound(r.handlers)
    ensures r.self == self && r.cls == cls && r.attrs == map[]
    ensures |r.handlers.keys| > 0 && r.handlers.keys[0] == cls
    ensures forall impl, addr :: InTable(r.handlers, impl, addr) <==> Seeds(ct, impl, addr)
    ensures forall impl, addr | Seeds(ct, impl, addr) ::
      InTable(r.handlers, impl, addr) && At(r.handlers, impl, addr) == Bound(At(ct, impl, addr).m, self)
    ensures forall impl :: impl in r.handlers.vals <==> impl == cls || exists addr :: Seeds(ct, impl, addr)
  {
    var h := Seed(Put(Empty(), cls, Empty()), self, ct, ct.keys);
    SeedFromEmpty(self, cls, ct);
    Registrar(self, cls, h, map[])
  }

  // ---------------------------------------------------------------------
  // __setattr__
  // ---------------------------------------------------------------------

  predicate HasPrefix(x: string, p: string) {
    |p| <= |x| && x[..|p|] == p
  }

  lemma PrefixSplit(p: string, a: string)
    ensures HasPrefix(p + a, p) && (p + a)[|p|..] == a
  {
    assert (p + a)[..|p|] == p;
  }

  /** The entry as stored in the assigning object: tuples are kept, a bare
      method from a class table is bound to the assigned value `owner`. */
  function Rebind(e: Entry, owner: Option<Inst>): Entry {
    match owner
    case None => e
    case Some(id) => Bound(e.m, id)
  }

  /** The entry that sweeping the buckets `impls` in order leaves for `addr`:
      the one from the last bucket that holds it. */
  function Resolve(t: Table, impls: seq<string>, addr: string): (r: Option<Entry>)
    requires forall i | i in impls :: i in t.vals
    ensures r.Some? <==> exists i | i in impls :: addr in t.vals[i].vals
    decreases |impls|
  {
    if impls == [] then None
    else
      assert forall x | x in impls[1..] :: x in impls;
      assert forall x | x in impls :: x == impls[0] || x in impls[1..];
      match Resolve(t, impls[1..], addr)
      case Some(e) => Some(e)
      case None => if addr in t.vals[impls[0]].vals then Some(t.vals[impls[0]].vals[addr]) else None
  }

  /** Lines 96-100 / 104-108 for one child bucket `src`, over the addresses `addrs`. */
  function ImportBucket(own: Bucket, prefix: string, src: Bucket, addrs: seq<string>, owner: Option<Inst>): (r: Bucket)
    requires own.Valid()
    requires forall a | a in addrs :: a in src.vals
    ensures r.Valid() && own.keys <= r.keys
    decreases |addrs|
  {
    if addrs == [] then own
    else ImportBucket(Put(own, prefix + addrs[0], Rebind(src.vals[addrs[0]], owner)), prefix, src, addrs[1..], owner)
  }

  lemma {:induction false} ImportBucketWrites(own: Bucket, prefix: string, src: Bucket, addrs: seq<string>, owner: Option<Inst>)
    requires own.Valid()
    requires forall a | a in addrs :: a in src.vals
    ensures var r := ImportBucket(own, prefix, src, addrs, owner);
      forall a | a in addrs :: prefix + a in r.vals && r.vals[prefix + a] == Rebind(src.vals[a], owner)
    decreases |addrs|
  {
    if addrs != [] {
      var a := addrs[0];
      var tail := addrs[1..];
      var own1 := Put(own, prefix + a, Rebind(src.vals[a], owner));
      assert forall x | x in tail :: x in addrs;
      ImportBucketWrites(own1, prefix, src, tail, owner);
      if a !in tail {
        PrefixSplit(prefix, a);
        ImportBucketKeeps(own1, prefix, src, tail, owner, prefix + a);
      }
    }
  }

  lemma {:induction false} ImportBucketKeeps(own: Bucket, prefix: string, src: Bucket, addrs: seq<string>, owner: Option<Inst>, x: string)
    requires own.Valid()
    requires forall a | a in addrs :: a in src.vals
    requires x in own.vals && !(HasPrefix(x, prefix) && x[|prefix|..] in addrs)
    ensures var r := ImportBucket(own, prefix, src, addrs, owner);
      x in r.vals && r.vals[x] == own.vals[x]
    decreases |addrs|
  {
    if addrs != [] {
      var a := addrs[0];
      var tail := addrs[1..];
      var own1 := Put(own, prefix + a, Rebind(src.vals[a], owner));
      assert forall y | y in tail :: y in addrs;
      PrefixSplit(prefix, a);
      assert x != prefix + a;
      ImportBucketKeeps(own1, prefix, src, tail, owner, x);
    }
  }

  lemma {:induction false} ImportBucketOrigin(own: Bucket, prefix: string, src: Bucket, addrs: seq<string>, owner: Option<Inst>, x: string)
    requires own.Valid()
    requires forall a | a in addrs :: a in src.vals
    requires x in ImportBucket(own, prefix, src, addrs, owner).vals
    ensures x in own.vals || (HasPrefix(x, prefix) && x[|prefix|..] in addrs)
    decreases |addrs|
  {
    if addrs != [] {
      var a := addrs[0];
      var tail := addrs[1..];
      var own1 := Put(own, prefix + a, Rebind(src.vals[a], owner));
      assert forall y | y in tail :: y in addrs;
      PrefixSplit(prefix, a);
      ImportBucketOrigin(own1, prefix, src, tail, owner, x);
    }
  }

  /** An address of the assigning object's bucket that the import writes. */
  predicate Imported(t: Table, impls: seq<string>, prefix: string, x: string)
    requires forall i | i in impls :: i in t.vals
  {
    HasPrefix(x, prefix) && Resolve(t, impls, x[|prefix|..]).Some?
  }

  /** Lines 95-100 / 103-108: every bucket of the child, in order, into `own`. */
  function ImportTable(own: Bucket, prefix: string, t: Table, impls: seq<string>, owner: Option<Inst>): (r: Bucket)
    requires own.Valid() && TableValid(t)
    requires forall i | i in impls :: i in t.vals
    ensures r.Valid() && own.keys <= r.keys
    decreases |impls|
  {
    if impls == [] then own
    else
      var b := t.vals[impls[0]];
      assert forall x | x in impls[1..] :: x in impls;
      ImportTable(ImportBucket(own, prefix, b, b.keys, owner), prefix, t, impls[1..], owner)
  }

  /** Every address some child bucket holds is written, with the entry of the last such bucket. */
  lemma {:induction false} ImportTableWrites(own: Bucket, prefix: string, t: Table, impls: seq<string>, owner: Option<Inst>, a: string)
    requires own.Valid() && TableValid(t)
    requires forall i | i in impls :: i in t.vals
    requires Resolve(t, impls, a).Some?
    ensures var r := ImportTable(own, prefix, t, impls, owner);
      prefix + a in r.vals && r.vals[prefix + a] == Rebind(Resolve(t, impls, a).value, owner)
    decreases |impls|
  {
    var b := t.vals[impls[0]];
    var own1 := ImportBucket(own, prefix, b, b.keys, owner);
    assert forall x | x in impls[1..] :: x in impls;
    if Resolve(t, impls[1..], a).Some? {
      ImportTableWrites(own1, prefix, t, impls[1..], owner, a);
    } else {
      assert a in b.keys;
      ImportBucketWrites(own, prefix, b, b.keys, owner);
      PrefixSplit(prefix, a);
      assert !Imported(t, impls[1..], prefix, prefix + a);
      ImportTableKeeps(own1, prefix, t, impls[1..], owner, prefix + a);
    }
  }

  /** An address the import does not write keeps its entry. */
  lemma {:induction false} ImportTableKeeps(own: Bucket, prefix: string, t: Table, impls: seq<string>, owner: Option<Inst>, x: string)
    requires own.Valid() && TableValid(t)
    requires forall i | i in impls :: i in t.vals
    requires x in own.vals && !Imported(t, impls, prefix, x)
    ensures var r := ImportTable(own, prefix, t, impls, owner);
      x in r.vals && r.vals[x] == own.vals[x]
    decreases |impls|
  {
    if impls != [] {
      var b := t.vals[impls[0]];
      var own1 := ImportBucket(own, prefix, b, b.keys, owner);
      assert forall y | y in impls[1..] :: y in impls;
      if HasPrefix(x, prefix) {
        assert x[|prefix|..] !in b.keys;
        assert !Imported(t, impls[1..], prefix, x);
      }
      ImportBucketKeeps(own, prefix, b, b.keys, owner, x);
      ImportTableKeeps(own1, prefix, t, impls[1..], owner, x);
    }
  }

  /** The import adds only prefixed addresses of the child. */
  lemma {:induction false} ImportTableOrigin(own: Bucket, prefix: string, t: Table, impls: seq<string>, owner: Option<Inst>, x: string)
    requires own.Valid() && TableValid(t)
    requires forall i | i in impls :: i in t.vals
    requires x in ImportTable(own, prefix, t, impls, owner).vals
    ensures x in own.vals || Imported(t, impls, prefix, x)
    decreases |impls|
  {
    if impls != [] {
      var b := t.vals[impls[0]];
      var own1 := ImportBucket(own, prefix, b, b.keys, owner);
      assert forall y | y in impls[1..] :: y in impls;
      ImportTableOrigin(own1, prefix, t, impls[1..], owner, x);
      if x in own1.vals {
        ImportBucketOrigin(own, prefix, b, b.keys, owner, x);
        if x !in own.vals {
          assert impls[0] in impls && x[|prefix|..] in t.vals[impls[0]].vals;
        }
      }
    }
  }

  /** The three facts above, for all addresses at once. */
  lemma ImportTableFacts(own: Bucket, prefix: string, t: Table, impls: seq<string>, owner: Option<Inst>)
    requires own.Valid() && TableValid(t)
    requires forall i | i in impls :: i in t.vals
    ensures var r := ImportTable(own, prefix, t, impls, owner);
      && (forall a | Resolve(t, impls, a).Some? ::
          prefix + a in r.vals && r.vals[prefix + a] == Rebind(Resolve(t, impls, a).value, owner))
      && (forall x | x in own.vals && !Imported(t, impls, prefix, x) :: x in r.vals && r.vals[x] == own.vals[x])
      && (forall x | x in r.vals :: x in own.vals || Imported(t, impls, prefix, x))
  {
    forall a | Resolve(t, impls, a).Some? {
      ImportTableWrites(own, prefix, t, impls, owner, a);
    }
    forall x | x in own.vals && !Imported(t, impls, prefix, x) {
      ImportTableKeeps(own, prefix, t, impls, owner, x);
    }
    forall x | x in ImportTable(own, prefix, t, impls, owner).vals {
      ImportTableOrigin(own, prefix, t, impls, owner, x);
    }
  }

  /** The own-class bucket the import writes into. */
  function Own(r: Registrar): Bucket
    requires Valid(r)
  {
    r.handlers.vals[r.cls]
  }

  /** The table a routing-capable value contributes (empty for a plain value). */
  function Source(value: Assigned): Table {
    match value
    case Instance(_, t) => t
    case Class(_, ct) => ct
    case Plain(_) => Empty()
  }

  /** The instance the contributed bare methods are bound to. */
  function Owner(value: Assigned): Option<Inst> {
    if value.Class? then Some(value.id) else None
  }

  /** What `__setattr__` accepts: an instance table, or a class table as `dispatchOSC` builds it. */
  ghost predicate Importable(value: Assigned) {
    && TableValid(Source(value))
    && (value.Class? ==> WellFiled(value.classHandlers))
  }

  /** The address sweep of the value's buckets, in the value's bucket order. */
  function Swept(value: Assigned, addr: string): Option<Entry>
    requires Importable(value)
  {
    Resolve(Source(value), Source(value).keys, addr)
  }

  /**
   * `DynamicRegistrar.__setattr__(key, value)`. A value with
   * `_instance_handlers` contributes its entries unchanged; a value with only
   * `_class_handlers` contributes its methods bound to the value itself;
   * either way under `"/" + key + address` in the own-class bucket, a later
   * child bucket overwriting an earlier one. Nothing is removed, no other
   * bucket changes, a plain value changes no table, and the attribute is
   * stored. This is the path that does not raise; `Assign` adds the
   * exception of a self-assignment.
   */
  function SetAttr(r: Registrar, key: string, value: Assigned): (r': Registrar)
    requires Valid(r) && Importable(value)
    ensures Valid(r') && r'.self == r.self && r'.cls == r.cls
    ensures r'.attrs == r.attrs[key := value]
    ensures r'.handlers.keys == r.handlers.keys
    ensures forall impl | impl in r.handlers.vals && impl != r.cls :: r'.handlers.vals[impl] == r.handlers.vals[impl]
    ensures Own(r).keys <= Own(r').keys
    ensures value.Plain? ==> r'.handlers == r.handlers
    ensures forall addr | Swept(value, addr).Some? ::
      "/" + key + addr in Own(r').vals && Own(r').vals["/" + key + addr] == Rebind(Swept(value, addr).value, Owner(value))
    ensures forall x | x in Own(r).vals && !Imported(Source(value), Source(value).keys, "/" + key, x) ::
      x in Own(r').vals && Own(r').vals[x] == Own(r).vals[x]
    ensures forall x | x in Own(r').vals :: x in Own(r).vals || Imported(Source(value), Source(value).keys, "/" + key, x)
  {
    var attrs := r.attrs[key := value];
    if value.Plain? then r.(attrs := attrs)
    else
      var t := Source(value);
      assert forall i | i in t.keys :: i in t.vals;
      var own := ImportTable(Own(r), "/" + key, t, t.keys, Owner(value));
      ImportTableFacts(Own(r), "/" + key, t, t.keys, Owner(value));
      assert forall a | Resolve(t, t.keys, a).Some? :: ("/" + key) + a == "/" + key + a;
      r.(handlers := Put(r.handlers, r.cls, own), attrs := attrs)
  }

  /** An assigned instance that is the registrar itself carries the registrar's own table. */
  predicate Coherent(r: Registrar, value: Assigned) {
    value.Instance? && value.id == r.self ==> value.handlers == r.handlers
  }

  /**
   * Assigning an object to an attribute of itself (`r.k = r`) makes the loop at
   * lines 95-100 write into the bucket it is walking: the own-class bucket, which
   * is the first one it walks since `__init__` creates it first. As soon as that
   * bucket holds an address the walk adds a key to it (`SelfImportAddsKey`), and
   * Python stops the walk with `RuntimeError` before line 110 stores anything.
   */
  predicate SelfRaises(r: Registrar, value: Assigned)
    requires Valid(r)
  {
    value.Instance? && value.id == r.self && Own(r).keys != []
  }

  /** A key of `s` of greatest length. */
  function Longest(s: seq<string>): (a: string)
    requires s != []
    ensures a in s && forall x | x in s :: |x| <= |a|
  {
    if |s| == 1 then s[0]
    else
      var b := Longest(s[1..]);
      if |s[0]| >= |b| then s[0] else b
  }

  /** Why self-assignment raises: for the longest address `a` of a non-empty
      bucket, the write of `"/" + key + a` adds a key the bucket did not have. */
  lemma SelfImportAddsKey(b: Bucket, key: string)
    requires b.Valid() && b.keys != []
    ensures exists a | a in b.vals :: "/" + key + a !in b.vals
  {
    var a := Longest(b.keys);
    assert |"/" + key + a| > |a|;
    assert a in b.vals;
  }

  /** `DynamicRegistrar.__setattr__(key, value)` with its exception: `RuntimeError`
      exactly for a self-assignment whose own-class bucket is not empty, and
      otherwise the import and store of `SetAttr`. */
  function Assign(r: Registrar, key: string, value: Assigned): (res: Result<Registrar, PyError>)
    requires Valid(r) && Importable(value) && Coherent(r, value)
    ensures res.Failure? <==> SelfRaises(r, value)
    ensures res.Failure? ==> res.error == RuntimeError
    ensures res.Success? ==> res.value == SetAttr(r, key, value) && res.value.attrs == r.attrs[key := value]
  {
    if SelfRaises(r, value) then Failure(RuntimeError) else Success(SetAttr(r, key, value))
  }

  /** Instance tables hold only `(method, instance)` tuples: `__init__` binds every
      class method, and `__setattr__` keeps a child's tuples or binds its methods. */
  lemma SetAttrKeepsBound(r: Registrar, key: string, value: Assigned)
    requires Valid(r) && AllBound(r.handlers) && Importable(value)
    requires value.Instance? ==> AllBound(value.handlers)
    ensures AllBound(SetAttr(r, key, value).handlers)
  {
    var r' := SetAttr(r, key, value);
    forall impl, addr | InTable(r'.handlers, impl, addr) ensures At(r'.handlers, impl, addr).Bound? {
      var t := Source(value);
      if impl != r.cls {
        assert InTable(r.handlers, impl, addr);
      } else if Imported(t, t.keys, "/" + key, addr) {
        var a := addr[|"/" + key|..];
        assert addr == "/" + key + a;
        assert Swept(value, a).Some?;
        var e := Swept(value, a).value;
        assert At(r'.handlers, impl, addr) == Rebind(e, Owner(value));
        if value.Instance? {
          ResolveFrom(t, t.keys, a);
          var i :| i in t.keys && a in t.vals[i].vals && t.vals[i].vals[a] == e;
          assert InTable(value.handlers, i, a);
        }
      } else {
        assert addr in Own(r).vals;
        assert InTable(r.handlers, impl, addr);
      }
    }
  }

  /** A resolved entry is an entry of one of the swept buckets. */
  lemma {:induction false} ResolveFrom(t: Table, impls: seq<string>, addr: string)
    requires forall i | i in impls :: i in t.vals
    requires Resolve(t, impls, addr).Some?
    ensures exists i | i in impls :: addr in t.vals[i].vals && t.vals[i].vals[addr] == Resolve(t, impls, addr).value
    decreases |impls|
  {
    assert forall x | x in impls[1..] :: x in impls;
    if Resolve(t, impls[1..], addr).Some? {
      ResolveFrom(t, impls[1..], addr);
    } else {
      assert impls[0] in impls;
    }
  }

  /** The sweep's entry comes from the last bucket of `impls` that holds `addr`. */
  lemma {:induction false} ResolveLast(t: Table, impls: seq<string>, addr: string)
    requires forall i | i in impls :: i in t.vals
    requires Resolve(t, impls, addr).Some?
    ensures exists j | 0 <= j < |impls| ::
      && addr in t.vals[impls[j]].vals
      && Resolve(t, impls, addr).value == t.vals[impls[j]].vals[addr]
      && forall k | j < k < |impls| :: addr !in t.vals[impls[k]].vals
    decreases |impls|
  {
    var rest := impls[1..];
    assert forall x | x in rest :: x in impls;
    if Resolve(t, rest, addr).Some? {
      ResolveLast(t, rest, addr);
      var j :| 0 <= j < |rest| && addr in t.vals[rest[j]].vals
        && Resolve(t, rest, addr).value == t.vals[rest[j]].vals[addr]
        && forall k | j < k < |rest| :: addr !in t.vals[rest[k]].vals;
      assert impls[j + 1] == rest[j];
      forall k | j + 1 < k < |impls| ensures addr !in t.vals[impls[k]].vals {
        assert impls[k] == rest[k - 1];
      }
    } else {
      forall k | 0 < k < |impls| ensures addr !in t.vals[impls[k]].vals {
        assert impls[k] == rest[k - 1] && rest[k - 1] in rest;
      }
    }
  }

  /** When only bucket `c` holds `addr`, the sweep yields that bucket's entry. */
  lemma {:induction false} ResolveUnique(t: Table, impls: seq<string>, c: string, addr: string)
    requires forall i | i in impls :: i in t.vals
    requires c in impls && addr in t.vals[c].vals
    requires forall i | i in impls && i != c :: addr !in t.vals[i].vals
    ensures Resolve(t, impls, addr) == Some(t.vals[c].vals[addr])
    decreases |impls|
  {
    assert forall x | x in impls[1..] :: x in impls;
    if c in impls[1..] {
      ResolveUnique(t, impls[1..], c, addr);
    } else {
      assert impls[0] == c;
      assert Resolve(t, impls[1..], addr).None?;
    }
  }

  /**
   * Composition is transitive: after `a.k1 = b` and then `outer.k2 = a`,
   * `outer`'s own bucket routes `/k2/k1<addr>` to the very entry (method and
   * owning instance) that `b` resolves `addr` to, provided no other bucket of
   * `a` also holds `/k1<addr>` (a later bucket would win the sweep). Neither
   * assignment raises: `b` is not `a` with a non-empty own bucket, and `outer`
   * is not `a`.
   */
  lemma Composition(outer: Registrar, a: Registrar, b: Registrar, k1: string, k2: string, addr: string)
    requires Valid(outer) && Valid(a) && Valid(b)
    requires Coherent(a, Instance(b.self, b.handlers)) && !SelfRaises(a, Instance(b.self, b.handlers))
    requires outer.self != a.self
    requires Swept(Instance(b.self, b.handlers), addr).Some?
    requires forall impl | impl in a.handlers.vals && impl != a.cls :: "/" + k1 + addr !in a.handlers.vals[impl].vals
    ensures Assign(a, k1, Instance(b.self, b.handlers)).Success?
    ensures var a' := Assign(a, k1, Instance(b.self, b.handlers)).value;
      && Coherent(outer, Instance(a'.self, a'.handlers))
      && Assign(outer, k2, Instance(a'.self, a'.handlers)).Success?
      && var o' := Assign(outer, k2, Instance(a'.self, a'.handlers)).value;
      "/" + k2 + "/" + k1 + addr in Own(o').vals
      && Own(o').vals["/" + k2 + "/" + k1 + addr] == Swept(Instance(b.self, b.handlers), addr).value
  {
    var a' := SetAttr(a, k1, Instance(b.self, b.handlers));
    var x := "/" + k1 + addr;
    assert x in Own(a').vals;
    assert forall i | i in a'.handlers.keys :: i in a'.handlers.vals;
    ResolveUnique(a'.handlers, a'.handlers.keys, a.cls, x);
    Nest(k2, k1, addr);
    var o' := SetAttr(outer, k2, Instance(a'.self, a'.handlers));
    assert Swept(Instance(a'.self, a'.handlers), x).Some?;
  }

  lemma Nest(k2: string, k1: string, addr: string)
    ensures "/" + k2 + ("/" + k1 + addr) == "/" + k2 + "/" + k1 + addr
  {
  }
}

=== FILE: transport.dfy ===
/**
 * The multicast OSC transport: argument normalisation and routing in
 * `send`/`build_osc`, and the inbound filter of the virtual-endpoint
 * variant, which drops the endpoint's own echoes from the multicast group.
 * Sockets are left out: `send` yields the datagram it would hand to
 * `sendto`, and `get_request` takes what `recvfrom` returned.
 */
module Transport {
  import opened Wrappers
  import Utf8
  import opened PyValue
  import opened VirtualSocket

  /** `Multicast.__MULTICAST_GROUP__` and `__MULTICAST_PORT__`. */
  const MulticastGroup: string := "239.0.0.1"
  const MulticastPort: int := 5001

  /** Where `send` hands a message. */
  datatype Route = Multicast(group: string, port: int) | Unicast(host: Value, hostPort: Value)

  /** An outgoing OSC message before python-osc encodes it. */
  datatype Outgoing = Outgoing(route: Route, oscAddress: string, args: seq<Value>)

  /**
   * `build_osc`'s argument list: a value that is not iterable, or is a `str`
   * or `bytes`, is one argument; otherwise the arguments are what iterating
   * it yields (a list's items, a dict's keys).
   */
  function BuildArgs(values: Value): (args: seq<Value>)
    ensures (values.Str? || values.Bytes? || Iterate(values).None?) ==> args == [values]
    ensures values.List? ==> args == values.items
    ensures values.Obj? ==>
      (|args| == |values.fields.keys| && forall i | 0 <= i < |args| :: args[i] == Str(values.fields.keys[i]))
  {
    if values.Str? || values.Bytes? || Iterate(values).None? then [values]
    else Iterate(values).value
  }

  /**
   * `send(osc_address, values, address, port)`: `None` values send no
   * arguments; the message is multicast to the group exactly when both
   * `address` and `port` are `None`, and unicast to `(address, port)` otherwise.
   */
  function Send(oscAddress: string, values: Value, address: Value, port: Value): (out: Outgoing)
    ensures out.oscAddress == oscAddress
    ensures out.route.Multicast? <==> address == Null && port == Null
    ensures out.route.Multicast? ==> out.route == Multicast(MulticastGroup, MulticastPort)
    ensures out.route.Unicast? ==> out.route == Unicast(address, port)
    ensures values == Null ==> out.args == []
    ensures values != Null ==> out.args == BuildArgs(values)
  {
    var args := if values == Null then BuildArgs(List([])) else BuildArgs(values);
    var route := if address == Null && port == Null then Multicast(MulticastGroup, MulticastPort) else Unicast(address, port);
    Outgoing(route, oscAddress, args)
  }

  /** A scalar, a `str` and a `bytes` value each travel as a single argument. */
  lemma ScalarIsOneArgument(oscAddress: string, v: Value, address: Value, port: Value)
    requires v != Null && !v.List? && !v.Obj?
    ensures Send(oscAddress, v, address, port).args == [v]
  {
  }

  /** The virtual variant's `build_osc`: the encoded datagram, read as UTF-8 text,
      in an envelope from this endpoint to everybody. */
  function VirtualBuild(own: VAddr, datagram: seq<Utf8.byte>): (r: Result<Value, PyError>)
    ensures r.Success? <==> Utf8.Decode(datagram).Some?
    ensures r.Success? ==>
      && Shaped(r.value, {SenderKey, ToKey, DataKey})
      && r.value.fields.vals[SenderKey] == AsValue(own) && r.value.fields.vals[ToKey] == Null
      && r.value.fields.vals[DataKey].Str? && Utf8.Encode(r.value.fields.vals[DataKey].s) == datagram
  {
    Encode(own, Raw(datagram), Null)
  }

  /** A datagram `get_request` passes on, with the sender it reports. */
  datatype Request = Request(data: seq<Utf8.byte>, sender: Value)

  /** The physical sender as `recvfrom` reports it, compared with `real_address`. */
  predicate FromSelf(sender: Value, physical: Value) {
    sender == physical
  }

  /** What `get_request` makes of a decoded envelope: `decode` yielding nothing fails
      to unpack (`TypeError`), a payload that is not text has no `encode`
      (`AttributeError`), the own echo yields nothing, and anything else is passed
      on as UTF-8 with the virtual sender. */
  function Deliver(own: VAddr, decoded: Result<Option<Decoded>, PyError>): (r: Result<Option<Request>, PyError>)
    ensures r.Success? && r.value.Some? ==>
      && decoded.Success? && decoded.value.Some? && decoded.value.value.data.Str?
      && !SameAddress(decoded.value.value.sender, own)
      && r.value.value == Request(Utf8.Encode(decoded.value.value.data.s), List(decoded.value.value.sender))
    ensures r == Success(None) <==>
      decoded.Success? && decoded.value.Some? && decoded.value.value.data.Str? && SameAddress(decoded.value.value.sender, own)
    ensures (decoded.Success? && decoded.value.Some? && decoded.value.value.data.Str?
             && !SameAddress(decoded.value.value.sender, own)) ==>
      r == Success(Some(Request(Utf8.Encode(decoded.value.value.data.s), List(decoded.value.value.sender))))
    ensures decoded.Failure? ==> r == Failure(decoded.error)
    ensures decoded == Success(None) ==> r == Failure(TypeError)
    ensures decoded.Success? && decoded.value.Some? && !decoded.value.value.data.Str? ==> r == Failure(AttributeError)
  {
    match decoded
    case Failure(e) => Failure(e)
    case Success(None) => Failure(TypeError)
    case Success(Some(Decoded(data, t))) =>
      if !data.Str? then Failure(AttributeError)
      else if SameAddress(t, own) then Success(None)
      else Success(Some(Request(Utf8.Encode(data.s), List(t))))
  }

  /**
   * `get_request()` over one received datagram `raw` from `sender`, whose
   * JSON reading is `parsed`, with `decode` as evidently intended: a datagram
   * from another physical address is passed on untouched; one from the own
   * physical address is an envelope and is decoded, its text re-encoded as
   * UTF-8 and passed on with the virtual sender, unless that sender is this
   * endpoint (its own multicast echo), which yields nothing.
   */
  function GetRequest(own: VAddr, physical: Value, raw: seq<Utf8.byte>, parsed: Loaded, sender: Value): (r: Result<Option<Request>, PyError>)
    ensures !FromSelf(sender, physical) ==> r == Success(Some(Request(raw, sender)))
    ensures FromSelf(sender, physical) ==> r == Deliver(own, Decode(own, parsed))
    ensures FromSelf(sender, physical) && r.Success? && r.value.Some? ==> !SameAddress(r.value.value.sender.items, own)
  {
    if !FromSelf(sender, physical) then Success(Some(Request(raw, sender)))
    else Deliver(own, Decode(own, parsed))
  }

  /** An envelope with a destination other than `null`. */
  predicate Directed(parsed: Loaded) {
    Envelope(parsed, {SenderKey, ToKey, DataKey}) && parsed.value.fields.vals[ToKey] != Null
  }

  /** `get_request()` as written, over `DecodeAsWritten`: it agrees with `GetRequest`
      except that an envelope from the own physical address with a destination
      other than `null` raises `TypeError`. */
  function GetRequestAsWritten(own: VAddr, physical: Value, raw: seq<Utf8.byte>, parsed: Loaded, sender: Value): (r: Result<Option<Request>, PyError>)
    ensures FromSelf(sender, physical) && Directed(parsed) ==> r == Failure(TypeError)
    ensures !(FromSelf(sender, physical) && Directed(parsed)) ==> r == GetRequest(own, physical, raw, parsed, sender)
  {
    if !FromSelf(sender, physical) then Success(Some(Request(raw, sender)))
    else Deliver(own, DecodeAsWritten(own, parsed))
  }

  /** Bytes from the own physical address that do not read as text raise
      `UnicodeDecodeError` out of `get_request`, as written and as intended. */
  lemma UndecodableRaises(own: VAddr, physical: Value, raw: seq<Utf8.byte>)
    ensures GetRequest(own, physical, raw, NotText, physical) == Failure(UnicodeDecodeError)
    ensures GetRequestAsWritten(own, physical, raw, NotText, physical) == Failure(UnicodeDecodeError)
  {
  }

  /** An endpoint drops its own multicast echo ... */
  lemma OwnEchoDropped(own: VAddr, physical: Value, raw: seq<Utf8.byte>, datagram: seq<Utf8.byte>)
    requires VirtualBuild(own, datagram).Success?
    ensures GetRequest(own, physical, raw, Parsed(VirtualBuild(own, datagram).value), physical) == Success(None)
  {
  }

  /** ... and receives a peer's multicast, sharing its physical address, as the
      original datagram from the peer's virtual address. */
  lemma PeerDelivered(own: VAddr, peer: VAddr, physical: Value, raw: seq<Utf8.byte>, datagram: seq<Utf8.byte>)
    requires VirtualBuild(peer, datagram).Success? && peer != own
    ensures GetRequest(own, physical, raw, Parsed(VirtualBuild(peer, datagram).value), physical)
      == Success(Some(Request(datagram, AsValue(peer))))
  {
    var text := PayloadText(Raw(datagram)).value;
    assert Utf8.Encode(text) == datagram;
  }

  /** The discrepancy at the receiving end: a unicast envelope from a peer on the
      same physical address raises `TypeError` as written, while the intended
      `decode` passes the datagram on from the peer's virtual address. */
  lemma UnicastRequestRaises(own: VAddr, peer: VAddr, physical: Value, raw: seq<Utf8.byte>, datagram: seq<Utf8.byte>)
    requires Utf8.Decode(datagram).Some? && peer != own
    ensures var envelope := Encode(peer, Raw(datagram), AsValue(own));
      && envelope.Success?
      && GetRequestAsWritten(own, physical, raw, Parsed(envelope.value), physical) == Failure(TypeError)
      && GetRequest(own, physical, raw, Parsed(envelope.value), physical) == Success(Some(Request(datagram, AsValue(peer))))
  {
    var text := PayloadText(Raw(datagram)).value;
    assert Utf8.Encode(text) == datagram;
    UnicastRoundTrip(peer, own, Raw(datagram));
  }
}

=== FILE: utf8.dfy ===
/**
 * Strict UTF-8 (RFC 3629), as Python's 'utf-8' codec applies it in
 * `bytes.decode('utf-8')` and `str.encode('utf-8')`: no overlong forms,
 * no encoded surrogates, nothing above U+10FFFF.
 */
module Utf8 {
  import opened Wrappers

  type byte = x: int | 0 <= x < 256

  /** A continuation byte 10xxxxxx. */
  predicate IsCont(b: byte) {
    0x80 <= b < 0xC0
  }

  /** The code point of a `char` (a Unicode scalar value). */
  function CodePoint(c: char): (n: nat)
    ensures n < 0xD800 || 0xE000 <= n < 0x11_0000
  {
    c as nat
  }

  /** Bytes of one scalar value, shortest form: the value is cut into six-bit groups,
      the last group in the last byte. */
  function EncodeChar(c: char): (bs: seq<byte>)
    ensures 1 <= |bs| <= 4
  {
    var n := CodePoint(c);
    var m1 := n / 64;
    var m2 := m1 / 64;
    if n < 0x80 then [n]
    else if n < 0x800 then [0xC0 + m1, 0x80 + n % 64]
    else if n < 0x1_0000 then [0xE0 + m2, 0x80 + m1 % 64, 0x80 + n % 64]
    else [0xF0 + m2 / 64, 0x80 + m2 % 64, 0x80 + m1 % 64, 0x80 + n % 64]
  }

  /** `s.encode('utf-8')` */
  function Encode(s: string): (bs: seq<byte>)
    ensures |s| <= |bs| <= 4 * |s|
  {
    if s == [] then [] else EncodeChar(s[0]) + Encode(s[1..])
  }

  /** The well-formed sequences of Table 3-7 of the Unicode standard, decoded at the head of `bs`:
      the scalar value and the number of bytes it takes. */
  function DecodeHead(bs: seq<byte>): (r: Option<(char, nat)>)
    ensures r.Some? ==> 1 <= r.value.1 <= |bs| && r.value.1 <= 4
  {
    if |bs| == 0 then None
    else
      var b0: int := bs[0];
      if b0 < 0x80 then Some((b0 as char, 1))
      else if 0xC2 <= b0 < 0xE0 then
        if |bs| >= 2 && IsCont(bs[1]) then
          var b1: int := bs[1];
          Some((((b0 - 0xC0) * 64 + (b1 - 0x80)) as char, 2))
        else None
      else if 0xE0 <= b0 < 0xF0 then
        if |bs| >= 3 && IsCont(bs[1]) && IsCont(bs[2])
           && (b0 != 0xE0 || bs[1] >= 0xA0) && (b0 != 0xED || bs[1] < 0xA0) then
          var b1: int, b2: int := bs[1], bs[2];
          Some((((b0 - 0xE0) * 4096 + (b1 - 0x80) * 64 + (b2 - 0x80)) as char, 3))
        else None
      else if 0xF0 <= b0 < 0xF5 then
        if |bs| >= 4 && IsCont(bs[1]) && IsCont(bs[2]) && IsCont(bs[3])
           && (b0 != 0xF0 || bs[1] >= 0x90) && (b0 != 0xF4 || bs[1] < 0x90) then
          var b1: int, b2: int, b3: int := bs[1], bs[2], bs[3];
          Some((((b0 - 0xF0) * 262144 + (b1 - 0x80) * 4096 + (b2 - 0x80) * 64 + (b3 - 0x80)) as char, 4))
        else None
      else None
  }

  /** `bs.decode('utf-8')`; `None` is the `UnicodeDecodeError`. */
  function Decode(bs: seq<byte>): Option<string>
    decreases |bs|
  {
    if bs == [] then Some([])
    else
      match DecodeHead(bs)
      case None => None
      case Some((c, n)) =>
        match Decode(bs[n..])
        case None => None
        case Some(rest) => Some([c] + rest)
  }

  lemma EncodeTwo(c: char, rest: seq<byte>)
    requires 0x80 <= CodePoint(c) < 0x800
    ensures DecodeHead(EncodeChar(c) + rest) == Some((c, 2))
  {
    var n := CodePoint(c);
    var bs := EncodeChar(c) + rest;
    assert bs[0] == 0xC0 + n / 64 && bs[1] == 0x80 + n % 64;
  }

  lemma EncodeThree(c: char, rest: seq<byte>)
    requires 0x800 <= CodePoint(c) < 0x1_0000
    ensures DecodeHead(EncodeChar(c) + rest) == Some((c, 3))
  {
    var n := CodePoint(c);
    var m1 := n / 64;
    var bs := EncodeChar(c) + rest;
    assert bs[0] == 0xE0 + m1 / 64 && bs[1] == 0x80 + m1 % 64 && bs[2] == 0x80 + n % 64;
    assert n == (m1 / 64 * 64 + m1 % 64) * 64 + n % 64;
  }

  lemma EncodeFour(c: char, rest: seq<byte>)
    requires 0x1_0000 <= CodePoint(c)
    ensures DecodeHead(EncodeChar(c) + rest) == Some((c, 4))
  {
    var n := CodePoint(c);
    var m1 := n / 64;
    var m2 := m1 / 64;
    var bs := EncodeChar(c) + rest;
    assert bs[0] == 0xF0 + m2 / 64 && bs[1] == 0x80 + m2 % 64;
    assert bs[2] == 0x80 + m1 % 64 && bs[3] == 0x80 + n % 64;
    assert n == ((m2 / 64 * 64 + m2 % 64) * 64 + m1 % 64) * 64 + n % 64;
  }

  lemma DecodeHeadEncodeChar(c: char, rest: seq<byte>)
    ensures DecodeHead(EncodeChar(c) + rest) == Some((c, |EncodeChar(c)|))
  {
    var n := CodePoint(c);
    if n < 0x80 {
    } else if n < 0x800 {
      EncodeTwo(c, rest);
    } else if n < 0x1_0000 {
      EncodeThree(c, rest);
    } else {
      EncodeFour(c, rest);
    }
  }

  /** Decoding what `Encode` produced gives the string back. */
  lemma {:induction false} DecodeEncode(s: string)
    ensures Decode(Encode(s)) == Some(s)
  {
    if s != [] {
      var e := EncodeChar(s[0]);
      DecodeHeadEncodeChar(s[0], Encode(s[1..]));
      assert (e + Encode(s[1..]))[|e|..] == Encode(s[1..]);
      DecodeEncode(s[1..]);
      assert [s[0]] + s[1..] == s;
    }
  }

  lemma EncodeCharDecodeHead(bs: seq<byte>)
    requires DecodeHead(bs).Some?
    ensures EncodeChar(DecodeHead(bs).value.0) == bs[..DecodeHead(bs).value.1]
  {
    var c := DecodeHead(bs).value.0;
    var n := CodePoint(c);
    var b0: int := bs[0];
    if b0 < 0x80 {
    } else if b0 < 0xE0 {
      var b1: int := bs[1];
      assert n == (b0 - 0xC0) * 64 + (b1 - 0x80);
    } else if b0 < 0xF0 {
      var b1: int, b2: int := bs[1], bs[2];
      var m1 := (b0 - 0xE0) * 64 + (b1 - 0x80);
      assert n == m1 * 64 + (b2 - 0x80);
      assert n / 64 == m1;
    } else {
      var b1: int, b2: int, b3: int := bs[1], bs[2], bs[3];
      var m2 := (b0 - 0xF0) * 64 + (b1 - 0x80);
      var m1 := m2 * 64 + (b2 - 0x80);
      assert n == m1 * 64 + (b3 - 0x80);
      assert n / 64 == m1;
      assert m1 / 64 == m2;
    }
  }

  /** A well-formed non-empty sequence is one encoded scalar value followed by a well-formed rest. */
  lemma DecodeCons(bs: seq<byte>) returns (c: char, n: nat)
    requires bs != [] && Decode(bs).Some?
    ensures 1 <= n <= |bs| && EncodeChar(c) == bs[..n]
    ensures Decode(bs[n..]).Some? && Decode(bs).value == [c] + Decode(bs[n..]).value
  {
    c, n := DecodeHead(bs).value.0, DecodeHead(bs).value.1;
    EncodeCharDecodeHead(bs);
  }

  lemma EncodeCons(c: char, s: string)
    ensures Encode([c] + s) == EncodeChar(c) + Encode(s)
  {
    assert ([c] + s)[0] == c && ([c] + s)[1..] == s;
  }

  /** Well-formed input is exactly what encoding its decoding produces. */
  lemma {:induction false} EncodeDecode(bs: seq<byte>)
    requires Decode(bs).Some?
    ensures Encode(Decode(bs).value) == bs
    decreases |bs|
  {
    if bs != [] {
      var c, n := DecodeCons(bs);
      var rest := bs[n..];
      EncodeDecode(rest);
      EncodeCons(c, Decode(rest).value);
      assert bs[..n] + rest == bs;
    }
  }
}

=== FILE: virtualsocket.dfy ===
/**
 * `VirtualSocket`: a simulated endpoint address `("v192.168.X.Y", port)`
 * drawn from a process-wide duplicate-free pool, and the JSON envelope that
 * tags each datagram with its virtual sender (and destination).
 *
 * `randint` draws are parameters; the JSON text layer is abstract, so
 * `json.dumps` yields a `Value` and `json.loads` is given as its outcome,
 * a `Loaded`.
 */
module VirtualSocket {
  import opened Wrappers
  import opened Utf8
  import opened PyValue
  import opened PyDict
  import opened Decimal

  // ---------------------------------------------------------------------
  // Addresses
  // ---------------------------------------------------------------------

  /** A virtual address `(host, port)`. */
  datatype VAddr = VAddr(host: string, port: int)

  /** The JSON form of an address tuple: a two-element array. */
  function AsValue(a: VAddr): Value {
    List([Str(a.host), Int(a.port)])
  }

  const HostPrefix: string := "v192.168."

  /** `f"v192.168.{x}.{y}"` */
  function HostName(x: nat, y: nat): (h: string)
    ensures HasHostPrefix(h)
  {
    HostPrefix + Show(x) + "." + Show(y)
  }

  predicate HasHostPrefix(h: string) {
    |HostPrefix| <= |h| && h[..|HostPrefix|] == HostPrefix
  }

  /** The index of the first `'.'` in `s`, if any. */
  function FirstDot(s: string): (r: Option<nat>)
    ensures r.Some? ==> r.value < |s| && s[r.value] == '.' && forall i | 0 <= i < r.value :: s[i] != '.'
    ensures r.None? ==> forall i | 0 <= i < |s| :: s[i] != '.'
  {
    if s == [] then None
    else if s[0] == '.' then Some(0)
    else match FirstDot(s[1..])
      case None => None
      case Some(i) => Some(i + 1)
  }

  /** Reads `x` and `y` back from a host name. */
  function ParseHost(h: string): Option<(nat, nat)> {
    if !HasHostPrefix(h) then None
    else
      var rest := h[|HostPrefix|..];
      match FirstDot(rest)
      case None => None
      case Some(i) =>
        match (ParseDigits(rest[..i]), ParseDigits(rest[i + 1..]))
        case (Some(x), Some(y)) => Some((x, y))
        case _ => None
  }

  lemma FirstDotAfterDigits(a: string, b: string)
    requires forall i | 0 <= i < |a| :: IsDigit(a[i])
    ensures FirstDot(a + "." + b) == Some(|a|)
  {
    var s := a + "." + b;
    assert s[|a|] == '.';
    assert forall i | 0 <= i < |a| :: s[i] == a[i];
  }

  /** Host names round-trip, so distinct draws give distinct hosts. */
  lemma ParseHostName(x: nat, y: nat)
    ensures ParseHost(HostName(x, y)) == Some((x, y))
  {
    var h := HostName(x, y);
    var rest := h[|HostPrefix|..];
    assert rest == Show(x) + "." + Show(y);
    FirstDotAfterDigits(Show(x), Show(y));
    assert rest[..|Show(x)|] == Show(x);
    assert rest[|Show(x)| + 1..] == Show(y);
    ParseShow(x);
    ParseShow(y);
  }

  lemma HostNameInjective(x1: nat, y1: nat, x2: nat, y2: nat)
    requires HostName(x1, y1) == HostName(x2, y2)
    ensures x1 == x2 && y1 == y2
  {
    ParseHostName(x1, y1);
    ParseHostName(x2, y2);
  }

  /** One round of `randint` draws in `set_address`. */
  datatype Draw = Draw(x: nat, y: nat, port: int)

  /** What `randint(0, 255)`, `randint(0, 255)` and `randint(50000, 60000)` can return. */
  predicate InRange(d: Draw) {
    d.x <= 255 && d.y <= 255 && 50000 <= d.port <= 60000
  }

  function DrawHost(d: Draw): string {
    HostName(d.x, d.y)
  }

  /** Some draw yields a host the pool lacks (so the retries end). */
  predicate HasFresh(pool: seq<string>, draws: seq<Draw>) {
    exists i | 0 <= i < |draws| :: DrawHost(draws[i]) !in pool
  }

  /**
   * `set_address()`: retries until a draw yields a host absent from the pool
   * `__ADDRESSES__`, appends it, and returns the new pool with the address.
   * The port is not checked against anything.
   */
  function SetAddress(pool: seq<string>, draws: seq<Draw>): (r: (seq<string>, VAddr))
    requires forall i | 0 <= i < |draws| :: InRange(draws[i])
    requires HasFresh(pool, draws)
    ensures r.1.host !in pool && r.0 == pool + [r.1.host]
    ensures Distinct(pool) ==> Distinct(r.0)
    ensures exists i | 0 <= i < |draws| ::
      && r.1 == VAddr(DrawHost(draws[i]), draws[i].port)
      && forall j | 0 <= j < i :: DrawHost(draws[j]) in pool
    ensures exists x: nat, y: nat | x <= 255 && y <= 255 :: r.1.host == HostName(x, y)
    ensures 50000 <= r.1.port <= 60000
    decreases |draws|
  {
    var d := draws[0];
    if DrawHost(d) !in pool then
      var r := (pool + [DrawHost(d)], VAddr(DrawHost(d), d.port));
      assert InRange(d) && r.1.host == HostName(d.x, d.y);
      assert Distinct(pool) ==> Distinct(r.0) by {
        if Distinct(pool) {
          forall i, j | 0 <= i < j < |r.0| ensures r.0[i] != r.0[j] {
            if j == |pool| {
              assert r.0[i] == pool[i];
            }
          }
        }
      }
      r
    else
      var i :| 0 <= i < |draws| && DrawHost(draws[i]) !in pool;
      assert draws[1..][i - 1] == draws[i];
      assert forall k | 0 <= k < |draws[1..]| :: draws[1..][k] == draws[k + 1];
      var r := SetAddress(pool, draws[1..]);
      var k :| 0 <= k < |draws[1..]| && r.1 == VAddr(DrawHost(draws[1..][k]), draws[1..][k].port)
        && forall j | 0 <= j < k :: DrawHost(draws[1..][j]) in pool;
      assert r.1 == VAddr(DrawHost(draws[k + 1]), draws[k + 1].port);
      r
  }

  /**
   * The `address` property: an endpoint that has an address keeps it (and
   * the pool is untouched); one without gets one from `set_address`.
   */
  function Address(mock: Option<VAddr>, pool: seq<string>, draws: seq<Draw>): (r: (Option<VAddr>, seq<string>, VAddr))
    requires forall i | 0 <= i < |draws| :: InRange(draws[i])
    requires mock.None? ==> HasFresh(pool, draws)
    ensures r.0 == Some(r.2)
    ensures mock.Some? ==> r.2 == mock.value && r.1 == pool
    ensures mock.None? ==> r.2.host !in pool && r.1 == pool + [r.2.host]
  {
    if mock.Some? then (mock, pool, mock.value)
    else
      var (pool', a) := SetAddress(pool, draws);
      (Some(a), pool', a)
  }

  /** Once allocated, the address never changes and allocates nothing more. */
  lemma AddressStable(mock: Option<VAddr>, pool: seq<string>, draws: seq<Draw>, later: seq<Draw>)
    requires forall i | 0 <= i < |draws| :: InRange(draws[i])
    requires forall i | 0 <= i < |later| :: InRange(later[i])
    requires mock.None? ==> HasFresh(pool, draws)
    ensures var (m1, p1, a1) := Address(mock, pool, draws);
      Address(m1, p1, later) == (m1, p1, a1)
  {
  }

  // ---------------------------------------------------------------------
  // Envelopes
  // ---------------------------------------------------------------------

  /** The datagram body handed to `encode`: `str` or `bytes`. */
  datatype Payload = Text(s: string) | Raw(bs: seq<byte>)

  /** `data.decode('utf-8')` for bytes (strict), the text itself otherwise. */
  function PayloadText(p: Payload): (r: Result<string, PyError>)
    ensures p.Text? ==> r == Success(p.s)
    ensures p.Raw? ==> (r.Success? <==> Utf8.Decode(p.bs).Some?)
    ensures p.Raw? && r.Success? ==> Utf8.Encode(r.value) == p.bs
  {
    match p
    case Text(s) => Success(s)
    case Raw(bs) =>
      match Utf8.Decode(bs)
      case Some(s) => EncodeDecode(bs); Success(s)
      case None => Failure(UnicodeDecodeError)
  }

  const SenderKey: string := "sender_address"
  const ToKey: string := "to_address"
  const DataKey: string := "data"

  /** A JSON object with the given keys, in order. */
  function Object(keys: seq<string>, vals: seq<Value>): (v: Value)
    requires |keys| == |vals| && Distinct(keys)
    ensures v.Obj? && v.fields.Valid() && v.fields.keys == keys
    ensures forall i | 0 <= i < |keys| :: v.fields.vals[keys[i]] == vals[i]
  {
    var m := map i | 0 <= i < |keys| :: keys[i] := vals[i];
    assert forall i | 0 <= i < |keys| :: keys[i] in m && m[keys[i]] == vals[i] by {
      forall i | 0 <= i < |keys| ensures keys[i] in m && m[keys[i]] == vals[i] {
        var j :| 0 <= j < |keys| && keys[j] == keys[i] && m[keys[i]] == vals[j];
        assert i == j;
      }
    }
    assert forall k :: k in m <==> k in keys;
    Obj(Dict(keys, m))
  }

  /**
   * `encode(data, to_address)`: an object with exactly the sender (the
   * endpoint's own address), the destination as given and the payload text;
   * bytes that are not UTF-8 raise `UnicodeDecodeError`.
   */
  function Encode(own: VAddr, payload: Payload, to: Value): (r: Result<Value, PyError>)
    ensures r.Failure? <==> PayloadText(payload).Failure?
    ensures r.Failure? ==> r.error == UnicodeDecodeError
    ensures r.Success? ==>
      && r.value.Obj? && r.value.fields.Valid()
      && r.value.fields.vals.Keys == {SenderKey, ToKey, DataKey}
      && r.value.fields.vals[SenderKey] == AsValue(own)
      && r.value.fields.vals[ToKey] == to
      && r.value.fields.vals[DataKey] == Str(PayloadText(payload).value)
  {
    match PayloadText(payload)
    case Failure(e) => Failure(e)
    case Success(text) =>
      EnvelopeKeys();
      var v := Object([SenderKey, ToKey, DataKey], [AsValue(own), to, Str(text)]);
      assert v.fields.vals.Keys == {SenderKey, ToKey, DataKey};
      Success(v)
  }

  /** The three envelope keys differ (they differ in their first character). */
  lemma EnvelopeKeys()
    ensures Distinct([SenderKey, ToKey, DataKey]) && Distinct([SenderKey, DataKey])
  {
    assert SenderKey[0] == 's' && ToKey[0] == 't' && DataKey[0] == 'd';
  }

  /** `isinstance(b, dict)` with exactly the key set `keys`. */
  predicate Shaped(v: Value, keys: set<string>) {
    v.Obj? && v.fields.vals.Keys == keys
  }

  /** Python `==` between a JSON value and an int port (`True == 1`). */
  predicate PortEq(v: Value, port: int) {
    v == Int(port) || (v.Bool? && (if v.b then 1 else 0) == port)
  }

  /** Python `==` between a sequence of values and an address tuple. */
  predicate SameAddress(t: seq<Value>, a: VAddr) {
    |t| == 2 && t[0] == Str(a.host) && PortEq(t[1], a.port)
  }

  /**
   * What `json.loads` makes of a received datagram: a JSON value, a
   * `JSONDecodeError` (which `decode` catches), or a `UnicodeDecodeError`
   * from bytes that do not read as text (which it does not catch).
   */
  datatype Loaded = Parsed(value: Value) | NotJson | NotText

  /** A parsed JSON object with exactly the given keys. */
  predicate Envelope(parsed: Loaded, keys: set<string>) {
    parsed.Parsed? && Shaped(parsed.value, keys)
  }

  /** What `decode` hands back: the payload and the sender as a tuple. */
  datatype Decoded = Decoded(data: Value, sender: seq<Value>)

  /**
   * `decode(data)` as written: a JSON-decoded destination is a list and never
   * equals the address tuple, so only a `null` destination is accepted; any
   * other destination reaches `bytes('')`, which raises `TypeError`.
   * `tuple(sender)` raises `TypeError` for a sender that is not iterable.
   */
  function DecodeAsWritten(own: VAddr, parsed: Loaded): (r: Result<Option<Decoded>, PyError>)
    ensures parsed.NotText? ==> r == Failure(UnicodeDecodeError)
    ensures !parsed.NotText? && !Envelope(parsed, {SenderKey, ToKey, DataKey}) ==> r == Success(None)
    ensures Envelope(parsed, {SenderKey, ToKey, DataKey}) && parsed.value.fields.vals[ToKey] != Null ==>
      r == Failure(TypeError)
    ensures Envelope(parsed, {SenderKey, ToKey, DataKey}) && parsed.value.fields.vals[ToKey] == Null ==>
      r == Decode(own, parsed)
  {
    if parsed.NotText? then Failure(UnicodeDecodeError)
    else if !Envelope(parsed, {SenderKey, ToKey, DataKey}) then Success(None)
    else
      var f := parsed.value.fields.vals;
      if f[ToKey] == Null then
        match Tuple(f[SenderKey])
        case Success(t) => Success(Some(Decoded(f[DataKey], t)))
        case Failure(e) => Failure(e)
      else Failure(TypeError)
  }

  /**
   * `decode(data)` as evidently intended: the destination is compared with
   * the own address element-wise, an envelope for this endpoint or for
   * everybody (`null`) yields its payload and sender, and one for another
   * endpoint yields an empty payload from the empty address `('', 0)`.
   */
  function Decode(own: VAddr, parsed: Loaded): (r: Result<Option<Decoded>, PyError>)
    ensures r.Success? && r.value.None? <==> !parsed.NotText? && !Envelope(parsed, {SenderKey, ToKey, DataKey})
    ensures parsed.NotText? ==> r == Failure(UnicodeDecodeError)
    ensures !parsed.NotText? && r.Failure? ==> r.error == TypeError
    ensures Envelope(parsed, {SenderKey, ToKey, DataKey}) ==>
      var f := parsed.value.fields.vals;
      && (Addressed(f[ToKey], own) ==> r == (match Tuple(f[SenderKey])
          case Success(t) => Success(Some(Decoded(f[DataKey], t)))
          case Failure(e) => Failure(e)))
      && (!Addressed(f[ToKey], own) ==> r == Success(Some(Decoded(Str(""), [Str(""), Int(0)]))))
  {
    if parsed.NotText? then Failure(UnicodeDecodeError)
    else if !Envelope(parsed, {SenderKey, ToKey, DataKey}) then Success(None)
    else
      var f := parsed.value.fields.vals;
      if Addressed(f[ToKey], own) then
        match Tuple(f[SenderKey])
        case Success(t) => Success(Some(Decoded(f[DataKey], t)))
        case Failure(e) => Failure(e)
      else Success(Some(Decoded(Str(""), [Str(""), Int(0)])))
  }

  /** The destination names this endpoint, or everybody. */
  predicate Addressed(to: Value, own: VAddr) {
    to == Null || (to.List? && SameAddress(to.items, own))
  }

  /** A broadcast from endpoint `x` reaches any endpoint `y` with its payload
      text and `x`'s address. */
  lemma BroadcastRoundTrip(x: VAddr, y: VAddr, p: Payload)
    requires PayloadText(p).Success?
    ensures Decode(y, Parsed(Encode(x, p, Null).value)) == Success(Some(Decoded(Str(PayloadText(p).value), [Str(x.host), Int(x.port)])))
    ensures DecodeAsWritten(y, Parsed(Encode(x, p, Null).value)) == Decode(y, Parsed(Encode(x, p, Null).value))
  {
  }

  /** A unicast from `x` to `y` reaches `y` once the destination is compared
      element-wise; as written it raises `TypeError` instead. */
  lemma UnicastRoundTrip(x: VAddr, y: VAddr, p: Payload)
    requires PayloadText(p).Success?
    ensures Decode(y, Parsed(Encode(x, p, AsValue(y)).value)) == Success(Some(Decoded(Str(PayloadText(p).value), [Str(x.host), Int(x.port)])))
    ensures DecodeAsWritten(y, Parsed(Encode(x, p, AsValue(y)).value)) == Failure(TypeError)
  {
  }

  /** A unicast to another endpoint decodes here to the empty payload from `('', 0)`. */
  lemma UnicastToOther(x: VAddr, y: VAddr, z: VAddr, p: Payload)
    requires PayloadText(p).Success? && z != y
    ensures Decode(y, Parsed(Encode(x, p, AsValue(z)).value)) == Success(Some(Decoded(Str(""), [Str(""), Int(0)])))
  {
  }

  // ---------------------------------------------------------------------
  // The two-field module-level variant
  // ---------------------------------------------------------------------

  /** `__encode_VSM__(data, address)`: an object with exactly the sender and the payload text. */
  function EncodeVsm(payload: Payload, address: Value): (r: Result<Value, PyError>)
    ensures r.Failure? <==> PayloadText(payload).Failure?
    ensures r.Success? ==>
      && Shaped(r.value, {SenderKey, DataKey}) && r.value.fields.Valid()
      && r.value.fields.vals[SenderKey] == address
      && r.value.fields.vals[DataKey] == Str(PayloadText(payload).value)
  {
    match PayloadText(payload)
    case Failure(e) => Failure(e)
    case Success(text) => Success(Object([SenderKey, DataKey], [address, Str(text)]))
  }

  /** `__decode_VSM__(data)`: `(data, sender_address)` of a well-shaped envelope,
      else `None`; bytes that are not text raise `UnicodeDecodeError`. */
  function DecodeVsm(parsed: Loaded): (r: Result<Option<(Value, Value)>, PyError>)
    ensures r.Failure? <==> parsed.NotText?
    ensures r.Failure? ==> r.error == UnicodeDecodeError
    ensures r.Success? && r.value.Some? <==> Envelope(parsed, {SenderKey, DataKey})
    ensures r.Success? && r.value.Some? ==> r.value.value == (parsed.value.fields.vals[DataKey], parsed.value.fields.vals[SenderKey])
  {
    if parsed.NotText? then Failure(UnicodeDecodeError)
    else if Envelope(parsed, {SenderKey, DataKey}) then
      Success(Some((parsed.value.fields.vals[DataKey], parsed.value.fields.vals[SenderKey])))
    else Success(None)
  }

  /** The two-field envelope round-trips; bytes come back as their UTF-8 text. */
  lemma VsmRoundTrip(p: Payload, address: Value)
    requires PayloadText(p).Success?
    ensures DecodeVsm(Parsed(EncodeVsm(p, address).value)) == Success(Some((Str(PayloadText(p).value), address)))
    ensures p.Raw? ==> Utf8.Encode(PayloadText(p).value) == p.bs
  {
  }

  /** A three-field envelope is rejected by the two-field decoder ... */
  lemma VsmRejectsEnvelope(x: VAddr, p: Payload, to: Value)
    requires PayloadText(p).Success?
    ensures DecodeVsm(Parsed(Encode(x, p, to).value)) == Success(None)
  {
    var v := Encode(x, p, to).value;
    assert ToKey in v.fields.vals.Keys && ToKey !in {SenderKey, DataKey};
  }

  /** ... and a two-field one by the endpoint decoder. */
  lemma DecodeRejectsVsm(x: VAddr, p: Payload, address: Value)
    requires PayloadText(p).Success?
    ensures Decode(x, Parsed(EncodeVsm(p, address).value)) == Success(None)
  {
    var v := EncodeVsm(p, address).value;
    assert ToKey !in v.fields.vals.Keys && ToKey in {SenderKey, ToKey, DataKey};
    assert !Shaped(v, {SenderKey, ToKey, DataKey});
  }
}

=== FILE: wrappers.dfy ===
/** Failure-carrying wrappers shared by every module of the model. */
module Wrappers {

  /** Python's `None` versus a present value. */
  datatype Option<+T> = None | Some(value: T)

  /** The value an operation returns, or the exception it raises. */
  datatype Result<+T, +E> = Success(value: T) | Failure(error: E)
}
